=== FILE: README.md ===
# golem-hyperdrive core, modelled in Dafny

golem-hyperdrive is a Node.js daemon. It shares and fetches file archives
over the hyperdrive peer-to-peer network and is driven through a small JSON
control API over HTTP. This project models the core of that daemon as pure
Dafny functions and proves properties about them. The model covers:

- **the archiver** (`src/archiver.js`):
  - the reference-counted `FeedTracker`;
  - the waiting lists behind `want`, `unwant`, `replicationFinished` and
    `replicationCallbacks`;
  - the content-key search of `open` (block 0, then the last block) through
    `feedKey` and `decodeContent`;
  - the `download-finished` release rule;
  - the `Entries` helpers: `is_file`, `path`, `map`, `exists`, `save`, `add`;
  - the `asyncEach` iteration they are built on;
- **the peer connector** (`src/peers.js`): peer ids, validation, injection of
  new peers into discovery, the drop counter and the one-shot error callback;
- **the control API** (`src/rpc.js`):
  - request validation;
  - the decisions of `_route`;
  - the `_commands` table;
  - the status and headers of `_respond`;
  - the default address;
- **the GC job** (`src/memory.js`): start, stop and `isRunning`, and the
  default interval;
- **the log format** (`src/logger.js`): zero padding, the timestamp layout and
  the line formatter.

Each module of the model follows one source component:

| file | module | source |
|---|---|---|
| wrappers.dfy | `Wrappers` | `Option` and `Result` |
| decimal.dfy | `Decimal` | JavaScript's decimal rendering of integers |
| path_sanitizer.dfy | `PathSanitizer` | `Entries.path` with Node's POSIX `path.join` and `path.normalize` |
| async_each.dfy | `AsyncEach` | `asyncEach` |
| entries.dfy | `Entries` | `Entries.is_file`, `map`, `exists`, `save` and `add` |
| feed_tracker.dfy | `FeedTracker` | `FeedTracker` |
| pending_requests.dfy | `PendingRequests` | `want`, `unwant`, `replicationFinished`, `replicationCallbacks` |
| replication.dfy | `Replication` | `open`, `decodeContent`, `feedKey` |
| peers.dfy | `Peers` | `PeerConnector` |
| rpc.dfy | `Rpc` | `RPC` |
| gc_job.dfy | `GcJob` | `GCJob` |
| logger.dfy | `Logger` | `twoDigits`, `threeDigits`, `timestamp`, `formatter` |

Everything outside the process becomes an input. This covers:

- the discovery-key hash and the feed factory;
- the hyperdrive index decoder;
- the IP format checks;
- `JSON.parse` and `JSON.stringify`;
- what the filesystem and the copy streams report;
- what the service behind the API returns;
- the clock.

Timers are abstracted to the order of the work they schedule. An exception
that the source catches becomes an error value. An exception that escapes
becomes a `Crash` or a `thrown` field.

## Model

| member | source | states |
|---|---|---|
| FeedTracker.Open | src/archiver.js:30-39 | the first open of a discovery key creates a slot counting 1 that holds the given feed, or a new one from the factory; a later open adds one to the count and returns the slot's existing feed; other keys are unchanged and every count stays at least 1 |
| FeedTracker.Close | src/archiver.js:41-47 | closing an untracked key throws; otherwise the count drops by one, and the slot is removed and the feed closed exactly when the count reaches zero |
| FeedTracker.OpenCloseRoundTrip | src/archiver.js:30-47 | a close right after an open restores the tracker, and closes the feed exactly when the open created the slot |
| FeedTracker.OpenTimesCount | src/archiver.js:30-39 | after n opens of one key its slot counts n more, every open shares the first open's feed, and other slots are untouched |
| FeedTracker.CloseTimesRemoves | src/archiver.js:41-47 | n closes of a slot counting n remove exactly that slot |
| FeedTracker.BalancedOpensAndCloses | src/archiver.js:25-47 | n opens of a new key followed by n closes leave the tracker as it was |
| PendingRequests.Want | src/archiver.js:74-85 | a stored archive is handed over at once and nothing is queued; otherwise the callback joins the end of the key's queue, the discovery key maps back to the archive key, and other queues are unchanged |
| PendingRequests.Without | src/archiver.js:88-90 | the filtered queue no longer contains the callback, and every other callback keeps its multiplicity |
| PendingRequests.Survivors | src/archiver.js:88-90 | the positions the filter keeps are increasing, none holds the removed callback, and every position holding another callback is among them |
| PendingRequests.WithoutInOrder | src/archiver.js:88-90 | the filtered queue is the queue read at its surviving positions in increasing order, so the relative order of the other callbacks is kept |
| PendingRequests.WithoutConcat | src/archiver.js:88-90 | filtering a queue gives the filtered front followed by the filtered back |
| PendingRequests.WithoutKeepsOthers | src/archiver.js:88-90 | filtering out a callback that is not queued leaves the queue exactly as it was |
| PendingRequests.Unwant | src/archiver.js:87-91 | only the key's queue changes: it loses every copy of the withdrawn callback, and the other callbacks keep their multiplicity and their order; an unknown key changes nothing |
| PendingRequests.WantThenUnwant | src/archiver.js:74-91 | withdrawing the only queued callback leaves an empty queue behind, not an absent one |
| PendingRequests.ReplicationCallbacks | src/archiver.js:238-243 | no contract of its own; `PendingRequests.ReplicationCallbacksCallsAll` states what it does |
| PendingRequests.ReplicationCallbacksCallsAll | src/archiver.js:238-243 | every queued callback is called exactly once, in queue order, with the same outcome; a callback that throws is modelled as one that returns, since the `catch` around each call discards the exception and goes on |
| PendingRequests.ReplicationFinished | src/archiver.js:225-236 | the key's queue is removed and nothing else changes |
| PendingRequests.ReplicationFinishedServesOnce | src/archiver.js:225-243 | every waiter is served once in the order it asked; a second completion for the same key serves nobody |
| PendingRequests.UnwantedNotServed | src/archiver.js:87-91 | a withdrawn callback is never called, and every other queued callback is called |
| Replication.FeedKey | src/archiver.js:215-223 | a key is returned exactly when the block decodes to a message of type `index` with a 32-byte `content`, and then it is that content; a decode error yields nothing |
| Replication.DecodeContent | src/archiver.js:209-213 | a failed read yields no key; a successful read yields what `feedKey` finds in the data |
| Replication.ContentKey | src/archiver.js:196-204 | no key is found exactly when block 0 yields none and either the feed is empty or its last block yields none |
| Replication.ContentKeySearch | src/archiver.js:196-204 | block 0 wins when it holds a key; any key found is 32 bytes, comes from block 0 or the last block, and is what `feedKey` reads from that block |
| Replication.NoIndexNoContent | src/archiver.js:196-204 | when neither block yields a key, no content feed is opened |
| Replication.ReleaseOnFinish | src/archiver.js:177-184 | a finished feed releases the waiters of its parent (itself when no parent object is given), unless it may be a metadata feed and is its own parent |
| Replication.Open | src/archiver.js:173-207 | the tracker stays valid; the finish rule releases the parent exactly as `ReleaseOnFinish` says; on a live stream the tracker is the one after the tracker's `open` |
| Replication.OpenOnDestroyedStream | src/archiver.js:186-191 | opening a feed on a stream that is already destroyed leaves the tracker as it was |
| Replication.Replicate | src/archiver.js:145-168 | the tracker stays valid; `Replication.ReplicateReleases` states which feeds are opened and who releases whom |
| Replication.ReplicateReleases | src/archiver.js:173-213 | the metadata feed's finish releases nobody; a content feed exists exactly when the key search finds a key, and its finish releases the waiters under the metadata feed; both feeds stay tracked |
| AsyncEach.AsyncEach | src/archiver.js:379-387 | the loop visits a prefix of a copy of the source in order, with `left` counting the items still queued; every visit but the last called `next()`; stopping early means the last handler did not call `next()`; it equals the reference run |
| AsyncEach.Run | src/archiver.js:379-387 | the reference run; no contract of its own: `AsyncEach.RunVisitsPrefix`, `AsyncEach.RunStopsEarly` and `AsyncEach.RunVisitsAll` state what it does |
| AsyncEach.RunVisitsPrefix | src/archiver.js:379-387 | the visits are a prefix of the source, with `left` equal to the number of items behind each one |
| AsyncEach.RunStopsEarly | src/archiver.js:381-382 | the iteration ends before the source is used up only because a handler passed an error or did not call `next` |
| AsyncEach.RunVisitsAll | src/archiver.js:379-387 | when every handler calls `next()`, every item is visited |
| AsyncEach.InEmissions | src/archiver.js:379-387 | an event is emitted exactly when some visited handler emitted it |
| PathSanitizer.StripBridge | src/archiver.js:21 | removing the leading `../` or `..\` run from the rendered string equals dropping the leading `..` segments that another segment follows |
| PathSanitizer.SplitNameJoin | src/archiver.js:22 | splitting a name on `/` or `\` and joining with `/` turns every backslash into a slash and keeps everything else |
| PathSanitizer.NormalizeIsNormal | src/archiver.js:276-277 | normalisation leaves only plain segments after a (possibly empty) prefix of `..`, with no `..` for absolute paths |
| PathSanitizer.EntryPathShape | src/archiver.js:274-279 | the sanitised path is the destination's normalised segments followed by the kept part of the name, normalised once more |
| PathSanitizer.EntryPathContained | src/archiver.js:274-279 | unless the name normalises to nothing but `..` segments, the sanitised path is the normalised destination followed by plain segments only, so it stays inside the destination |
| PathSanitizer.EntryPathBareParentRun | src/archiver.js:277 | a name that normalises to only `..` segments keeps one `..`, and the path climbs one level above the destination |
| PathSanitizer.BareParentEscapes | src/archiver.js:274-279 | the name `..` under the destination `/a/b` is written to `/a` |
| PathSanitizer.EntryPath | src/archiver.js:274-279 | no contract of its own; `PathSanitizer.EntryPathShape` and `PathSanitizer.EntryPathContained` state what it computes |
| Entries.PathOf | src/archiver.js:274-276 | a path is computed exactly when the entry's name is a string |
| Entries.MapEntries | src/archiver.js:281-293 | the table lists each key once and lists exactly its keys; `Entries.MapEntriesTable` states its contents |
| Entries.MapEntriesTable | src/archiver.js:281-293 | the table holds exactly the names of file entries whose names are strings, each mapped to its sanitised path |
| Entries.MapEntriesExtends | src/archiver.js:284-287 | the keys of a listing are a prefix of the keys of any longer listing that starts with it: later entries never move or remove a key already in the table |
| Entries.Files | src/archiver.js:300 | the file list has one element per key, and a path is in it exactly when some key maps to it |
| Entries.FilesOfListing | src/archiver.js:281-300 | the file list of a listing has one path per key, the keys are distinct and are exactly the string names of listed file entries, and each path is its key's sanitised path; the first-appearance order of the keys is what `Entries.MapEntriesExtends` states |
| Entries.DestinationOfFile | src/archiver.js:305 | a file entry finds a destination exactly when its name is a string, and it is the sanitised path of that name |
| Entries.Add | src/archiver.js:336-355 | no contract of its own; `Entries.AddOutcome` states what it reports |
| Entries.AddOutcome | src/archiver.js:336-355 | the callback is called at most once: with the first copy failure, with success once every file is copied, and never for an empty list |
| Entries.Save | src/archiver.js:295-334 | no contract of its own; `Entries.SaveOutcome`, `Entries.SaveSucceeds`, `Entries.SaveFirstErrorWins`, `Entries.SaveCopiesMissing` and `Entries.SaveNeedsFinalFile` state what it does |
| Entries.SaveOutcome | src/archiver.js:295-334 | a listing error is the only report; any report comes last; only file entries that are missing on disk are copied, to their sanitised paths; success means every missing file was copied and reports every mapped path; an empty listing, or one that ends in a non-file entry, never succeeds |
| Entries.SaveSucceeds | src/archiver.js:301-330 | a listing whose entries are all saved cleanly and whose last entry is a file ends by reporting the file list of its path table, and reports no error |
| Entries.SaveFirstErrorWins | src/archiver.js:311-330 | every error the save reports is the error of the first entry it fails on, every earlier entry being clean; and when some entry fails, the save ends by reporting that first failure's error |
| Entries.SaveCopiesMissing | src/archiver.js:303-320 | a copied entry is a listed file entry that did not exist yet, copied to its table path |
| Entries.SaveNeedsFinalFile | src/archiver.js:302-311 | when the last entry is not a file, the save never reports success |
| Decimal.NatToStringRoundTrip | src/peers.js:5 | reading back the decimal rendering of a port gives the port |
| Decimal.IntToStringInjective | src/peers.js:5 | distinct integers render to distinct strings |
| Peers.Id | src/peers.js:5 | no contract of its own; `Peers.IdInjective` states that distinct peers get distinct ids |
| Peers.IdInjective | src/peers.js:5 | distinct peers have distinct `host:port` ids, including IPv6 hosts that contain colons |
| Peers.Validate | src/peers.js:58-66 | a peer passes exactly when its host has IPv4 or IPv6 format and its port is between 1 and 65535; a bad host is reported before a bad port |
| Peers.FirstInvalid | src/peers.js:42 | the list passes exactly when every peer passes; otherwise the error is that of the first peer in list order that fails |
| Peers.Addresses | src/peers.js:36-39 | conversion succeeds exactly when every offer has a `TCP` address, keeps length and order, and fails with the property-read error otherwise |
| Peers.Fire | src/peers.js:7-16 | the error callback hears the message only on its first call; every call leaves it spent |
| Peers.Inject | src/peers.js:49-56 | after injection the connector's ids are the old ones plus the ids of the list |
| Peers.InjectAnnouncesOnlyNew | src/peers.js:49-56 | every announcement is a `peer` event from `dht` on the connector's channel, for a listed peer whose id was new |
| Peers.InjectAnnouncesAllNew | src/peers.js:49-56 | every listed peer whose id was new is announced |
| Peers.InjectAnnouncesOnce | src/peers.js:50-54 | no announcement occurs twice |
| Peers.Connect | src/peers.js:34-47 | the channel and the drop counter never change and no injected id is forgotten; `Peers.ConnectValidatesFirst` states the rest |
| Peers.ConnectValidatesFirst | src/peers.js:34-47 | an offer without `TCP` or one invalid peer rejects the whole list, injects nothing, and reports only the first error; a valid list injects every new peer, only announces, and reports nothing |
| Peers.ConnectNothing | src/peers.js:36 | a missing list injects nothing and reports nothing |
| Peers.Drop | src/peers.js:27-31 | a drop of an unknown peer changes nothing; a known peer's drop is counted; the terminal error is reported exactly when that drop makes the count equal to the number of injected peers and the callback is still armed |
| Peers.Drops | src/peers.js:27-31 | a run of drops changes only the drop counter, by at most one per drop, and the callback's state; a spent callback hears nothing |
| Peers.EveryPeerDropped | src/peers.js:27-31 | when every injected peer drops once, the terminal error is reported exactly once, on the last drop |
| Peers.ConnectWhenSpent | src/peers.js:44-46 | once the error callback is spent, `connect` only announces and reports nothing |
| Peers.FireAsWritten | src/peers.js:8-12 | as written, the wrapper's first call throws because the receiver has no `func`; later calls do nothing |
| Peers.ConnectAsWrittenInjectsNothing | src/peers.js:43 | as written, `connect` never injects a peer, and a non-empty list given to a new connector makes `connect` itself throw |
| Peers.OneValidPeerFinding | src/peers.js:43 | on one valid peer given to a new connector, the code as written throws and announces nothing, while the corrected connector announces the peer |
| Peers.FirstReportFinding | src/peers.js:7-16 | as written, the first report throws instead of calling the callback; the corrected wrapper delivers the message once and stays silent after that |
| Rpc.ValidateRequest | src/rpc.js:148-153 | a request passes exactly when its method is `post` in any ASCII case and its content type is exactly `application/json`; a bad method is reported first |
| Rpc.PostInAnyCase | src/rpc.js:149 | every capitalisation of `post` is accepted |
| Rpc.Lookup | src/rpc.js:72 | a property is found exactly when some field has that name, and its value is that field's value |
| Rpc.CommandNamed | src/rpc.js:88-146 | exactly `id`, `download`, `upload` and `cancel` are commands |
| Rpc.ToText | src/rpc.js:72 | turning a value into a property key throws `Cannot convert object to primitive value` exactly when the value is an object with its own `toString` field, or an array holding one at any depth |
| Rpc.JoinText | src/rpc.js:72 | joining an array's elements throws exactly when one of them cannot be converted |
| Rpc.CommandKey | src/rpc.js:72 | the command key fails exactly when the `command` property is present and cannot be converted; a missing property gives `undefined` |
| Rpc.ArrayCommandName | src/rpc.js:72 | a command given as a one-element array has the same key as the bare string |
| Rpc.RejectedBeforeBody | src/rpc.js:42-48 | a request that fails validation is answered 400 with the thrown string, whatever its body and the service |
| Rpc.RunCommand | src/rpc.js:88-146 | no contract of its own; `Rpc.CommandStatuses` and `Rpc.CancelAnswers` state what it answers |
| Rpc.CommandStatuses | src/rpc.js:88-146 | a command never crashes the process and answers 200, 400, or a 404 that only `cancel` gives, with `not_found` |
| Rpc.Route | src/rpc.js:38-86 | no contract of its own; `Rpc.RouteStatuses`, `Rpc.RouteBodyErrors`, `Rpc.RejectedBeforeBody` and `Rpc.CrashingBodies` state what it answers |
| Rpc.RouteStatuses | src/rpc.js:38-86 | every answer is 200, 400 or 404, and 404 comes only from `cancel` for an unknown upload |
| Rpc.RouteBodyErrors | src/rpc.js:55-76 | a body stream error or a body that is not JSON gets 400 with its message; a body whose command key converts but is not a command gets 400 `Invalid command`; a body whose command cannot be converted crashes with `Cannot convert object to primitive value` |
| Rpc.RouteGuardedFixesConversion | src/rpc.js:72-76 | with the command check guarded, a command that cannot be converted gets 400 `Invalid command` where the code as written crashes; every other request is answered the same |
| Rpc.RouteGuardedCrashes | src/rpc.js:64-86 | with the command check guarded, only the body `null` crashes |
| Rpc.ToStringCommandFinding | src/rpc.js:72 | the bodies `{"command": {"toString": 0}}` and `{"command": [{"toString": 0}]}` crash the code as written and get 400 `Invalid command` with the guard |
| Rpc.CancelAnswers | src/rpc.js:134-145 | `cancel` answers 200 `{ok: hash}` or 404 `{not_found: hash}`; a falsy hash fails its assertion with 400 |
| Rpc.FilePairs | src/rpc.js:112-121 | the conversion fails exactly for a missing or `null` `files`, and otherwise yields an array |
| Rpc.FilePairsOfObject | src/rpc.js:113-116 | an object becomes one `[key, value]` pair per property, in order |
| Rpc.Status | src/rpc.js:160 | a falsy code gives status 200; any other code is used as the status |
| Rpc.Respond | src/rpc.js:155-165 | falsy data sends an empty body and truthy data sends its serialisation; the content type is JSON and the content length is the body's UTF-8 byte length |
| Rpc.ByteLengthBounds | src/rpc.js:162 | the byte length is between one and four times the character count, and equals it exactly for ASCII text |
| Rpc.Handle | src/rpc.js:38-86 | a request gets a reply exactly when routing does not crash |
| Rpc.CrashingBodies | src/rpc.js:64-76 | a valid request crashes exactly when its body is `null` or its command cannot be turned into a property key; `null` crashes with the property-read error |
| Rpc.Configure | src/rpc.js:9-13 | a falsy port or host falls back to 3292 or `localhost`; any other value is kept |
| GcJob.NewJob | src/memory.js:7-10 | a new job is stopped; a falsy interval falls back to 30 minutes; any other interval is kept |
| GcJob.Start | src/memory.js:12-27 | without an exposed collector the job warns and stays as it is; a running job warns that it is already started; otherwise it starts and schedules collection at its interval |
| GcJob.Stop | src/memory.js:29-38 | a stopped job warns that it was not started; a running job stops and clears its timer |
| GcJob.IsRunning | src/memory.js:40-42 | no contract of its own; `GcJob.StartStopProtocol` states when a job runs |
| GcJob.StartStopProtocol | src/memory.js:12-42 | a job runs after `start` exactly when the collector is exposed or it already ran; starting or stopping twice acts once; a stop after a successful start restores the job |
| Logger.TwoDigits | src/logger.js:4 | the field is two decimal digits; `Logger.TwoDigitsValue` states its value |
| Logger.ThreeDigits | src/logger.js:5 | the field is three decimal digits; `Logger.ThreeDigitsValue` states its value |
| Logger.Timestamp | src/logger.js:7-17 | no contract of its own; `Logger.TimestampMonthField` states what it prints, month field included |
| Logger.TwoDigitsValue | src/logger.js:4 | the two-character field is the number modulo 100 |
| Logger.ThreeDigitsValue | src/logger.js:5 | the three-character field is the number modulo 1000 |
| Logger.PaddedInRange | src/logger.js:4-5 | a number that fits its field reads back unchanged |
| Logger.LayoutRoundTrip | src/logger.js:10-16 | with a four-digit year and fields in range, the timestamp is well formed and every field reads back as the number written |
| Logger.TimestampMonthField | src/logger.js:11 | as written, the month field reads back as `getMonth()`, so January shows as `00` |
| Logger.CalendarTimestampRoundTrip | src/logger.js:7-17 | the corrected timestamp reads back as the calendar date and time, with the month between 1 and 12 |
| Logger.UpperNormalizes | src/logger.js:22 | the upper-cased level has no lower-case ASCII letter, other characters are unchanged, and upper-casing is idempotent |
| Logger.Prefix | src/logger.js:19-23 | the head of a line is the timestamp, then ` [`, the application, `] [`, the upper-cased level and `] `, each at its position, and nothing else |
| Logger.Formatter | src/logger.js:19-26 | the line is the head of `Logger.Prefix`, then the message (empty when absent); without metadata keys the line ends there, and with them it is exactly two characters and the metadata's JSON longer |
| Logger.FormatterLines | src/logger.js:19-26 | without metadata, a line built from one-line parts has no newline; metadata with keys appends exactly a newline, a tab and its JSON; metadata without keys adds nothing |

## Left out

- Node.js I/O is not modelled: the HTTP server and `listen`, the streams,
  `pump`, `mkdirp`, `fs`, LevelDB, hyperdrive and hypercore, and the swarm.
  Their outcomes are inputs.
- `Archiver.replicate`, `get`, `create`, `remove`, `createFeed` and
  `createArchive` are stream and storage plumbing; only the feed tracking and
  the key search that `open` performs on the stream are modelled.
- `open` also stores the content feed on its parent (`parent.content`); that
  back-link changes no decision, so it is left out.
- Debug and error log calls are left out. `Entries.map` logging and
  skipping an entry whose path throws is kept as the skip.
- `Entries.save` is modelled over a fixed snapshot of the filesystem: a file
  written during the save is not seen by a later existence check in the same
  save.
- Object property order is modelled as insertion order. JavaScript lists
  integer-like keys first; the path table and `Object.keys(json.files)` are
  not modelled for such keys. A `__proto__` name is not modelled either.
- Rpc.Json: numbers are integers; floating-point numbers are not modelled.
- Rpc.Lookup: a parsed object is taken to have each key once, as
  `JSON.parse` leaves it. A field list with a repeated name finds the first
  one, where `JSON.parse` keeps the last.
- Rpc.RunCommand: the `assert.ok` message depends on the Node version, so it
  is an input.
- Peers.Peer: ports are integers. Non-integer and non-numeric ports are not
  modelled.
- Logger.Upper: `toUpperCase` is modelled for ASCII letters only. Other
  letters are kept as they are.
- Property-read errors: the `TypeError` messages for reading a property of
  `undefined` or `null` (`Cannot read properties of undefined (reading 'x')`)
  use the wording of Node.js 16.9 and later; earlier releases word them
  `Cannot read property 'x' of undefined`. They are carried as the message
  alone, without the `TypeError: ` name.
- Logger.Formatter: the application name comes from `src/common.js`, which is
  not part of this model, so it is a parameter.
- PathSanitizer.NormalizeString: it follows `path.posix.normalize` of
  Node.js 10 and later, which compares whole segments with `..`. Earlier
  releases treat a segment such as `x..` differently.
- Logger.LayoutRoundTrip: stated for four-digit years only, where the
  fields can be read back by position.
- `src/hyperg.js`, `src/client.js`, `src/main.js`, `src/index.js`,
  `src/lib/fs-readstreams-progress.js` and `build.js` are not part of this
  model.

Places where the code behaves differently from the system's documented
description. The model follows the code:

- One invalid peer makes `connect` reject the whole list. It does not skip
  just that peer.
- `Entries.save` skips an entry that is already downloaded and present on
  disk. It does not fetch it again.
- An archive whose metadata holds no content key is never reported finished.
  The metadata feed's own finish releases nobody.
- An empty list never completes `Entries.add` or `Entries.save`, and neither
  does a listing whose last entry is not a file.
- A name that normalises to nothing but `..` segments still escapes the
  destination by one level (`PathSanitizer.BareParentEscapes`).

## Findings

| source | as written | input that shows it | evidently intended | confidence | as-written member | corrected member |
|---|---|---|---|---|---|---|
| src/logger.js:11 | the month field is `getMonth()`, which counts from 0 | any date in January: the timestamp shows month `00`; December shows `11` | the calendar month, `01` to `12` | high (not executed) | Logger.TimestampMonthField | Logger.CalendarTimestampRoundTrip |
| src/peers.js:9-11 | the one-shot wrapper reads and replaces `this.func`; called as `this.eb(...)`, its receiver is the connector, which has no `func`, so the first call throws and the callback is never called | the first error report of a new connector | the wrapped callback is called once with the message, and later calls do nothing | high (not executed) | Peers.FirstReportFinding | Peers.Fire |
| src/rpc.js:72 | `hasOwnProperty(json.command)` runs outside any `try`, and converting an object with its own `toString` field to a key throws, so the process exits | the body `{"command": {"toString": 0}}` | 400 `Invalid command`, as for any other unknown command | high (not executed) | Rpc.ToStringCommandFinding | Rpc.RouteGuardedFixesConversion |
| src/peers.js:43 | `peers.forEach(this._connect)` passes the method without its receiver, so `this.peers.has` throws on the first peer | one valid peer given to a new connector | each new peer is recorded and announced on the connector's channel | high (not executed) | Peers.OneValidPeerFinding | Peers.ConnectValidatesFirst |

=== FILE: async_each.dfy ===
/** `asyncEach` of src/archiver.js: a copy of the source list is consumed one
    item per timer tick; the handler receives the item, a `next` callback and
    the number of items still queued (`left`). Calling `next()` schedules the
    following item; calling `next(error)` or not calling `next` at all ends the
    iteration. Timer ticks are abstracted: the model records the order of the
    visits and what each handler invocation emitted. */
module AsyncEach {

  /** What a handler does with `next` once its own work is done. */
  datatype Next = CallNext | CallNextWithError | Return

  /** One handler invocation: the events it emitted (calls of the caller's own
      callbacks) and what it did with `next`. */
  datatype Step<R> = Step(emitted: seq<R>, next: Next)

  /** A handler invocation as the iteration made it: the item and `left`. */
  datatype Visit<T> = Visit(item: T, left: nat)

  datatype Trace<T, R> = Trace(visited: seq<Visit<T>>, emitted: seq<R>)

  /** The events of the given visits, in visit order. */
  function Emissions<T, R>(visits: seq<Visit<T>>, handler: (T, nat) -> Step<R>): seq<R>
    decreases |visits|
  {
    if |visits| == 0 then []
    else handler(visits[0].item, visits[0].left).emitted + Emissions(visits[1..], handler)
  }

  /** The reference semantics: the first queued item is visited with `left`
      equal to the number of items behind it, and the rest follow only if the
      handler called `next()` without an error. */
  function Run<T, R>(items: seq<T>, handler: (T, nat) -> Step<R>): Trace<T, R>
    decreases |items|
  {
    if |items| == 0 then Trace([], [])
    else
      var left := |items| - 1;
      var step := handler(items[0], left);
      if step.next == CallNext then
        var rest := Run(items[1..], handler);
        Trace([Visit(items[0], left)] + rest.visited, step.emitted + rest.emitted)
      else
        Trace([Visit(items[0], left)], step.emitted)
  }

  /** Whether the handler let the iteration continue after this visit. */
  predicate Continues<T, R>(handler: (T, nat) -> Step<R>, v: Visit<T>) {
    handler(v.item, v.left).next == CallNext
  }

  /** The iteration loop of `asyncEach`, one tick per round: shift the first
      queued item off the copy and hand it over with the number still queued. */
  method AsyncEach<T, R>(source: seq<T>, handler: (T, nat) -> Step<R>) returns (visited: seq<Visit<T>>, emitted: seq<R>)
    ensures Trace(visited, emitted) == Run(source, handler)
    ensures |visited| <= |source|
    ensures forall i :: 0 <= i < |visited| ==> visited[i] == Visit(source[i], |source| - i - 1)
    ensures forall i :: 0 <= i < |visited| - 1 ==> Continues(handler, visited[i])
    ensures |visited| < |source| ==> |visited| > 0 && !Continues(handler, visited[|visited| - 1])
    ensures emitted == Emissions(visited, handler)
  {
    var items := source;
    visited := [];
    emitted := [];
    var running := true;
    while running && |items| > 0
      invariant running ==> Run(source, handler) == Trace(visited + Run(items, handler).visited, emitted + Run(items, handler).emitted)
      invariant !running ==> Run(source, handler) == Trace(visited, emitted)
      decreases |items|
    {
      var item := items[0];
      var step := handler(item, |items| - 1);
      var rest := Run(items[1..], handler);
      if step.next == CallNext {
        assert Run(items, handler) == Trace([Visit(item, |items| - 1)] + rest.visited, step.emitted + rest.emitted);
        assert visited + ([Visit(item, |items| - 1)] + rest.visited) == (visited + [Visit(item, |items| - 1)]) + rest.visited;
        assert emitted + (step.emitted + rest.emitted) == (emitted + step.emitted) + rest.emitted;
      } else {
        assert Run(items, handler) == Trace([Visit(item, |items| - 1)], step.emitted);
      }
      visited := visited + [Visit(item, |items| - 1)];
      emitted := emitted + step.emitted;
      items := items[1..];
      running := step.next == CallNext;
    }
    if running {
      assert Run(items, handler) == Trace([], []);
      assert visited + [] == visited && emitted + [] == emitted;
    }
    RunVisitsPrefix(source, handler);
    RunContinuesUntilLast(source, handler);
    RunStopsEarly(source, handler);
    RunEmissions(source, handler);
  }

  /** The reference semantics visits a prefix of the source, in order, with
      `left` counting the items behind it. */
  lemma {:induction false} RunVisitsPrefix<T, R>(items: seq<T>, handler: (T, nat) -> Step<R>)
    ensures var t := Run(items, handler);
      && |t.visited| <= |items|
      && (forall i :: 0 <= i < |t.visited| ==> t.visited[i] == Visit(items[i], |items| - i - 1))
    decreases |items|
  {
    if |items| > 0 {
      RunVisitsPrefix(items[1..], handler);
      var rest := Run(items[1..], handler).visited;
      var t := Run(items, handler).visited;
      if Continues(handler, Visit(items[0], |items| - 1)) {
        assert t == [Visit(items[0], |items| - 1)] + rest;
        forall i | 1 <= i < |t|
          ensures t[i] == Visit(items[i], |items| - i - 1)
        {
          assert t[i] == rest[i - 1];
          assert items[1..][i - 1] == items[i];
        }
      }
    }
  }

  /** Every visit but the last one called `next()`. */
  lemma {:induction false} RunContinuesUntilLast<T, R>(items: seq<T>, handler: (T, nat) -> Step<R>)
    ensures forall i :: 0 <= i < |Run(items, handler).visited| - 1 ==> Continues(handler, Run(items, handler).visited[i])
    decreases |items|
  {
    if |items| > 0 {
      RunContinuesUntilLast(items[1..], handler);
      var rest := Run(items[1..], handler).visited;
      var t := Run(items, handler).visited;
      if Continues(handler, Visit(items[0], |items| - 1)) {
        assert t == [Visit(items[0], |items| - 1)] + rest;
        forall i | 0 <= i < |t| - 1
          ensures Continues(handler, t[i])
        {
          if i > 0 {
            assert t[i] == rest[i - 1];
            assert Continues(handler, rest[i - 1]);
          } else {
            assert t[0] == Visit(items[0], |items| - 1);
          }
        }
      }
    }
  }

  /** The iteration ends before the source is exhausted only because the last
      visit's handler did not call `next()`. */
  lemma {:induction false} RunStopsEarly<T, R>(items: seq<T>, handler: (T, nat) -> Step<R>)
    ensures var t := Run(items, handler);
      |t.visited| < |items| ==> |t.visited| > 0 && !Continues(handler, t.visited[|t.visited| - 1])
    decreases |items|
  {
    if |items| > 0 {
      RunStopsEarly(items[1..], handler);
      var rest := Run(items[1..], handler).visited;
      var t := Run(items, handler).visited;
      if Continues(handler, Visit(items[0], |items| - 1)) {
        assert t == [Visit(items[0], |items| - 1)] + rest;
        if |rest| > 0 {
          assert t[|t| - 1] == rest[|rest| - 1];
        }
      }
    }
  }

  /** The events of a run are those of its visits, in visit order. */
  lemma {:induction false} RunEmissions<T, R>(items: seq<T>, handler: (T, nat) -> Step<R>)
    ensures Run(items, handler).emitted == Emissions(Run(items, handler).visited, handler)
    decreases |items|
  {
    if |items| > 0 {
      RunEmissions(items[1..], handler);
      var rest := Run(items[1..], handler);
      var t := Run(items, handler);
      if Continues(handler, Visit(items[0], |items| - 1)) {
        assert t.visited[1..] == rest.visited;
      } else {
        assert t.visited[1..] == [];
      }
    }
  }

  /** When every visit continues, every item is visited exactly once. */
  lemma RunVisitsAll<T, R>(items: seq<T>, handler: (T, nat) -> Step<R>)
    requires forall i :: 0 <= i < |items| ==> handler(items[i], |items| - i - 1).next == CallNext
    ensures |Run(items, handler).visited| == |items|
  {
    RunVisitsPrefix(items, handler);
  }

  /** An event is emitted exactly when some visit's handler emitted it. */
  lemma {:induction false} InEmissions<T, R>(visits: seq<Visit<T>>, handler: (T, nat) -> Step<R>, e: R)
    ensures e in Emissions(visits, handler)
        <==> exists i :: 0 <= i < |visits| && e in handler(visits[i].item, visits[i].left).emitted
    decreases |visits|
  {
    if |visits| > 0 {
      InEmissions(visits[1..], handler, e);
      if e in Emissions(visits[1..], handler) {
        var i :| 0 <= i < |visits[1..]| && e in handler(visits[1..][i].item, visits[1..][i].left).emitted;
        assert visits[1..][i] == visits[i + 1];
      }
      if exists i :: 0 <= i < |visits| && e in handler(visits[i].item, visits[i].left).emitted {
        var i :| 0 <= i < |visits| && e in handler(visits[i].item, visits[i].left).emitted;
        if i > 0 {
          assert visits[i] == visits[1..][i - 1];
        }
      }
    }
  }

  /** When only the final visit may emit, the events are exactly its events. */
  lemma {:induction false} EmissionsOfSilentPrefix<T, R>(visits: seq<Visit<T>>, handler: (T, nat) -> Step<R>)
    requires 1 <= |visits|
    requires forall i :: 0 <= i < |visits| - 1 ==> handler(visits[i].item, visits[i].left).emitted == []
    ensures Emissions(visits, handler) == handler(visits[|visits| - 1].item, visits[|visits| - 1].left).emitted
    decreases |visits|
  {
    if |visits| > 1 {
      EmissionsOfSilentPrefix(visits[1..], handler);
      assert visits[1..][|visits| - 2] == visits[|visits| - 1];
    } else {
      assert Emissions(visits[1..], handler) == [];
    }
  }
}

=== FILE: decimal.dfy ===
/** JavaScript's rendering of an integral number as a decimal string
    (`'' + n`, `String(n)`), and its inverse. */
module Decimal {

  predicate IsDigit(c: char) {
    '0' <= c <= '9'
  }

  predicate AllDigits(s: string) {
    forall i :: 0 <= i < |s| ==> IsDigit(s[i])
  }

  function DigitChar(d: nat): (c: char)
    requires d < 10
    ensures IsDigit(c)
  {
    ('0' as int + d) as char
  }

  function DigitValue(c: char): (d: nat)
    requires IsDigit(c)
    ensures d < 10
  {
    c as int - '0' as int
  }

  /** The decimal rendering of a natural number, without leading zeros. */
  function NatToString(n: nat): (s: string)
    ensures 1 <= |s|
    ensures AllDigits(s)
    ensures n < 10 <==> |s| == 1
    decreases n
  {
    if n < 10 then [DigitChar(n)] else NatToString(n / 10) + [DigitChar(n % 10)]
  }

  /** The number a string of digits denotes (most significant digit first). */
  function DigitsValue(s: string): nat
    requires AllDigits(s)
    decreases |s|
  {
    if |s| == 0 then 0 else DigitsValue(s[..|s| - 1]) * 10 + DigitValue(s[|s| - 1])
  }

  /** JavaScript's rendering of an integral number: a minus sign for negatives. */
  function IntToString(i: int): (s: string)
    ensures 1 <= |s|
    ensures forall k :: 0 <= k < |s| ==> s[k] != ':'
    ensures i >= 0 ==> s == NatToString(i)
  {
    if i < 0 then "-" + NatToString(-i) else NatToString(i)
  }

  lemma {:induction false} NatToStringRoundTrip(n: nat)
    ensures DigitsValue(NatToString(n)) == n
    decreases n
  {
    if n >= 10 {
      var s := NatToString(n);
      assert s[..|s| - 1] == NatToString(n / 10);
      NatToStringRoundTrip(n / 10);
    }
  }

  /** A rendering starts with a minus sign exactly for negative numbers. */
  lemma SignOfRendering(i: int)
    ensures IntToString(i)[0] == '-' <==> i < 0
  {
    if i >= 0 {
      assert IsDigit(NatToString(i)[0]);
    }
  }

  /** Distinct integers render to distinct strings. */
  lemma IntToStringInjective(i: int, j: int)
    requires IntToString(i) == IntToString(j)
    ensures i == j
  {
    SignOfRendering(i);
    SignOfRendering(j);
    var s := IntToString(i);
    if i < 0 {
      assert NatToString(-i) == s[1..] == NatToString(-j);
      NatToStringRoundTrip(-i);
      NatToStringRoundTrip(-j);
    } else {
      NatToStringRoundTrip(i);
      NatToStringRoundTrip(j);
    }
  }

  /** The last digit of a rendering is the number modulo ten. */
  lemma LastDigit(n: nat)
    ensures NatToString(n)[|NatToString(n)| - 1] == DigitChar(n % 10)
  {
  }

  /** The last `k` characters of a string, as `s.slice(-k)` takes them. */
  function SliceLast(s: string, k: nat): (r: string)
    ensures |r| == if |s| <= k then |s| else k
    ensures r == s[|s| - |r|..]
  {
    if |s| <= k then s else s[|s| - k..]
  }

  function Pow10(k: nat): (p: nat)
    ensures p >= 1
  {
    if k == 0 then 1 else 10 * Pow10(k - 1)
  }

  /** A positive multiple of `m` is at least `m`. */
  lemma MultipleAtLeast(x: int, m: int)
    requires x >= 1 && m > 0
    ensures x * m >= m
  {
    assert x * m == (x - 1) * m + m;
  }

  /** Euclidean division leaves one remainder. */
  lemma ModUnique(a: int, q: int, r: int, m: int)
    requires m > 0 && 0 <= r < m && a == q * m + r
    ensures a % m == r
  {
    var q', r' := a / m, a % m;
    assert a == q' * m + r';
    var x := q - q';
    assert x * m == q * m - q' * m;
    assert x * m == r' - r;
    if x >= 1 {
      MultipleAtLeast(x, m);
    } else if x <= -1 {
      MultipleAtLeast(-x, m);
    }
  }

  /** Appending digit `d` to a number taken modulo `m` is taking the longer
      number modulo `10 m`. */
  lemma ModAppendDigit(a: nat, d: nat, m: nat)
    requires m > 0 && d < 10
    ensures (a * 10 + d) % (m * 10) == (a % m) * 10 + d
  {
    var q, r := a / m, a % m;
    assert a * 10 + d == q * (m * 10) + (r * 10 + d);
    ModUnique(a * 10 + d, q, r * 10 + d, m * 10);
  }

  /** The last `k` digits of a digit string denote its value modulo `10^k`. */
  lemma {:induction false} SuffixValue(s: string, k: nat)
    requires AllDigits(s) && k <= |s|
    ensures DigitsValue(s[|s| - k..]) == DigitsValue(s) % Pow10(k)
    decreases k
  {
    if k > 0 {
      var t := s[|s| - k..];
      var init := s[..|s| - 1];
      assert t[..|t| - 1] == init[|init| - (k - 1)..];
      SuffixValue(init, k - 1);
      ModAppendDigit(DigitsValue(init), DigitValue(s[|s| - 1]), Pow10(k - 1));
    }
  }

  /** Leading zeros do not change the value of a digit string. */
  lemma {:induction false} LeadingZero(s: string)
    requires AllDigits(s)
    ensures AllDigits("0" + s) && DigitsValue("0" + s) == DigitsValue(s)
    decreases |s|
  {
    if |s| > 0 {
      var z := "0" + s;
      assert z[..|z| - 1] == "0" + s[..|s| - 1];
      LeadingZero(s[..|s| - 1]);
    }
  }
}

=== FILE: entries.dfy ===
/** The `Entries` helpers of src/archiver.js: which archive entries are files,
    where each is saved (`Entries.path` via the path sanitiser), the
    name-to-path table (`Entries.map`), and the two transfers built on
    `asyncEach`: saving an archive to a directory (`Entries.save`) and filling
    a new archive from local files (`Entries.add`). Streams, `mkdirp` and the
    filesystem are abstracted by a snapshot of their outcomes. */
module Entries {
  import opened Wrappers
  import opened AsyncEach
  import PathSanitizer

  /** An entry's `name` property: a string, or some other value of the given
      JavaScript truthiness. */
  datatype Name = Text(value: string) | NonText(truthy: bool)

  /** An entry of an archive listing: its `type` and its `name`. */
  datatype Entry = Entry(kind: string, name: Name)

  /** `Entries.is_file`: the entry's type is `file` and its name is truthy. */
  predicate IsFile(e: Entry) {
    e.kind == "file" &&
    match e.name
    case Text(s) => s != ""
    case NonText(truthy) => truthy
  }

  /** `Entries.path` on an entry: splitting a name that is not a string throws. */
  function PathOf(e: Entry, destination: string): (r: Result<string>)
    ensures r.Success? <==> e.name.Text?
  {
    match e.name
    case Text(s) => Success(PathSanitizer.EntryPath(s, destination))
    case NonText(_) => Failure("name.split is not a function")
  }

  // ---------------------------------------------------------------------
  // Entries.map: the name -> destination path table
  // ---------------------------------------------------------------------

  /** A plain object used as a dictionary: its own keys in insertion order
      and the value under each. */
  datatype Table = Table(keys: seq<string>, values: map<string, string>)

  /** Every key is listed once, and exactly the keys are listed. */
  ghost predicate ValidTable(t: Table) {
    && (forall i, j :: 0 <= i < j < |t.keys| ==> t.keys[i] != t.keys[j])
    && (forall k :: k in t.values <==> k in t.keys)
  }

  /** `t[k] = v`: an existing key keeps its place and takes the new value, a
      new key goes last. */
  function Put(t: Table, k: string, v: string): (r: Table)
    requires ValidTable(t)
    ensures ValidTable(r)
    ensures r.values == t.values[k := v]
    ensures k in t.values ==> r.keys == t.keys
    ensures k !in t.values ==> r.keys == t.keys + [k]
  {
    if k in t.values then Table(t.keys, t.values[k := v])
    else Table(t.keys + [k], t.values[k := v])
  }

  /** `Entries.map`: every file entry whose path can be computed is entered
      under its name; an entry whose path throws is logged and skipped. */
  function MapEntries(entries: seq<Entry>, destination: string): (t: Table)
    ensures ValidTable(t)
    decreases |entries|
  {
    if |entries| == 0 then Table([], map[])
    else
      var paths := MapEntries(entries[..|entries| - 1], destination);
      var e := entries[|entries| - 1];
      match PathOf(e, destination)
      case Success(p) => if IsFile(e) then Put(paths, e.name.value, p) else paths
      case Failure(_) => paths
  }

  /** A file entry whose name is the string `k`. */
  predicate IsNamedFile(e: Entry, k: string) {
    IsFile(e) && e.name == Text(k)
  }

  /** Some entry of the list is a file named `k`. */
  predicate ListsFile(entries: seq<Entry>, k: string) {
    exists j :: 0 <= j < |entries| && IsNamedFile(entries[j], k)
  }

  lemma ListsFileSnoc(entries: seq<Entry>, k: string)
    requires |entries| > 0
    ensures ListsFile(entries, k)
        <==> ListsFile(entries[..|entries| - 1], k) || IsNamedFile(entries[|entries| - 1], k)
  {
    var init := entries[..|entries| - 1];
    if ListsFile(entries, k) {
      var j :| 0 <= j < |entries| && IsNamedFile(entries[j], k);
      if j < |init| {
        assert init[j] == entries[j];
      }
    }
    if ListsFile(init, k) {
      var j :| 0 <= j < |init| && IsNamedFile(init[j], k);
      assert entries[j] == init[j];
    }
  }

  /** The table holds exactly the names of the file entries whose names are
      strings, each mapped to its sanitised destination path. */
  lemma {:induction false} MapEntriesTable(entries: seq<Entry>, destination: string)
    ensures var t := MapEntries(entries, destination);
      && (forall k :: k in t.values <==> ListsFile(entries, k))
      && (forall k :: k in t.values ==> t.values[k] == PathSanitizer.EntryPath(k, destination))
    decreases |entries|
  {
    if |entries| > 0 {
      MapEntriesTable(entries[..|entries| - 1], destination);
      forall k {
        ListsFileSnoc(entries, k);
      }
    }
  }

  /** One more entry never moves or removes an existing key. */
  lemma MapEntriesStep(entries: seq<Entry>, destination: string)
    requires |entries| > 0
    ensures MapEntries(entries[..|entries| - 1], destination).keys <= MapEntries(entries, destination).keys
  {
  }

  /** Keys keep the order in which their names first appear: later entries
      never move an existing key. */
  lemma {:induction false} MapEntriesExtends(entries: seq<Entry>, more: seq<Entry>, destination: string)
    ensures MapEntries(entries, destination).keys <= MapEntries(entries + more, destination).keys
    decreases |more|
  {
    if |more| > 0 {
      var all := entries + more;
      assert all[..|all| - 1] == entries + more[..|more| - 1];
      MapEntriesExtends(entries, more[..|more| - 1], destination);
      MapEntriesStep(all, destination);
    } else {
      assert entries + more == entries;
    }
  }

  /** `Object.keys(paths).map(k => paths[k])`: the destination paths in key order. */
  function Files(t: Table): (files: seq<string>)
    requires ValidTable(t)
    ensures |files| == |t.keys|
    ensures forall p :: p in files <==> exists k :: k in t.values && t.values[k] == p
  {
    var files := seq(|t.keys|, i requires 0 <= i < |t.keys| => t.values[t.keys[i]]);
    assert forall k :: k in t.values ==> exists i :: 0 <= i < |t.keys| && t.keys[i] == k && files[i] == t.values[k];
    files
  }

  /** The file list of a listing has one path per distinct string name of a
      listed file entry, in the order the names first appear, and each path
      is that name's sanitised destination. */
  lemma FilesOfListing(entries: seq<Entry>, destination: string)
    ensures var t := MapEntries(entries, destination);
      && |Files(t)| == |t.keys|
      && (forall i, j :: 0 <= i < j < |t.keys| ==> t.keys[i] != t.keys[j])
      && (forall k :: k in t.keys <==> ListsFile(entries, k))
      && (forall i :: 0 <= i < |t.keys| ==> Files(t)[i] == PathSanitizer.EntryPath(t.keys[i], destination))
  {
    MapEntriesTable(entries, destination);
  }

  /** `paths[entry.name]`: a name that is not a string finds nothing. */
  function Destination(t: Table, name: Name): (r: Option<string>)
    ensures r.Some? ==> name.Text? && name.value in t.values && r.value == t.values[name.value]
  {
    match name
    case Text(k) => if k in t.values then Some(t.values[k]) else None
    case NonText(_) => None
  }

  /** A file entry is saved to its sanitised path exactly when its name is a string. */
  lemma DestinationOfFile(entries: seq<Entry>, destination: string, j: nat)
    requires j < |entries| && IsFile(entries[j])
    ensures var d := Destination(MapEntries(entries, destination), entries[j].name);
      && (d.Some? <==> entries[j].name.Text?)
      && (d.Some? ==> d.value == PathSanitizer.EntryPath(entries[j].name.value, destination))
  {
    MapEntriesTable(entries, destination);
    if entries[j].name.Text? {
      assert IsNamedFile(entries[j], entries[j].name.value);
    }
  }

  // ---------------------------------------------------------------------
  // Entries.add
  // ---------------------------------------------------------------------

  /** A local file to archive: `[source path, entry name]`. */
  type SourceFile = (string, string)

  /** What `Entries.add` reports through its callback. */
  datatype AddReport = Added | AddFailed(error: string)

  /** One `asyncEach` handler call of `Entries.add`: copy the file, then fail,
      finish on the last item, or continue. `failures` holds the files whose
      copy stream ends in an error. */
  function AddStep(failures: map<SourceFile, string>, file: SourceFile, left: nat): Step<AddReport> {
    if file in failures then Step([AddFailed(failures[file])], Return)
    else if left == 0 then Step([Added], Return)
    else Step([], CallNext)
  }

  /** The callback invocations of `Entries.add`. */
  function Add(files: seq<SourceFile>, failures: map<SourceFile, string>): seq<AddReport> {
    Run(files, (f: SourceFile, left: nat) => AddStep(failures, f, left)).emitted
  }

  /** The first failing file, if any. */
  predicate FailsFirstAt(files: seq<SourceFile>, failures: map<SourceFile, string>, i: nat) {
    i < |files| && files[i] in failures && forall j :: 0 <= j < i ==> files[j] !in failures
  }

  /** `Entries.add` calls back at most once: with the first failure, with
      success once every file is copied, and never for an empty list. */
  lemma {:induction false} AddOutcome(files: seq<SourceFile>, failures: map<SourceFile, string>)
    ensures var r := Add(files, failures);
      && (r == [] <==> |files| == 0)
      && (r == [Added] <==> |files| > 0 && forall i :: 0 <= i < |files| ==> files[i] !in failures)
      && (forall i: nat :: FailsFirstAt(files, failures, i) ==> r == [AddFailed(failures[files[i]])])
      && (|r| <= 1)
    decreases |files|
  {
    if |files| > 0 {
      AddOutcome(files[1..], failures);
      if files[0] !in failures && |files| > 1 {
        assert Add(files, failures) == Add(files[1..], failures);
        forall i: nat | FailsFirstAt(files, failures, i)
          ensures i >= 1 && FailsFirstAt(files[1..], failures, i - 1)
        {
          assert i != 0;
          assert forall j :: 0 <= j < i - 1 ==> files[1..][j] == files[j + 1];
        }
        assert (forall i :: 0 <= i < |files| ==> files[i] !in failures)
            <==> (forall i :: 0 <= i < |files[1..]| ==> files[1..][i] !in failures) by {
          if forall i :: 0 <= i < |files[1..]| ==> files[1..][i] !in failures {
            forall i | 0 <= i < |files| ensures files[i] !in failures {
              if i > 0 {
                assert files[i] == files[1..][i - 1];
              }
            }
          }
        }
      } else if files[0] in failures {
        assert forall i: nat :: FailsFirstAt(files, failures, i) ==> i == 0;
      }
    }
  }

  // ---------------------------------------------------------------------
  // Entries.save and Entries.exists
  // ---------------------------------------------------------------------

  /** What `save` observes outside the archive listing: the entries the
      archive holds completely (`isEntryDownloaded`), the paths that exist on
      disk, the paths whose parent directory cannot be created, and the
      entries whose copy stream ends in an error. A snapshot: paths written
      during the same save are not seen by later existence checks. */
  datatype Snapshot = Snapshot(
    downloaded: set<Entry>,
    present: set<string>,
    mkdirErrors: map<string, string>,
    copyErrors: map<Entry, string>)

  /** `Entries.exists`: the entry is downloaded and its destination exists. */
  predicate Exists(s: Snapshot, e: Entry, dest: Option<string>) {
    e in s.downloaded && dest.Some? && dest.value in s.present
  }

  /** Why `save` called back with an error. */
  datatype SaveError =
    | ListFailed(message: string)
    | NoDestination          // `path.dirname(undefined)` throws
    | MkdirFailed(message: string)
    | CopyFailed(message: string)

  /** What `save` does, in order: a copy of an entry to a path, or a call of
      its callback. */
  datatype SaveEvent = Copied(entry: Entry, dest: string) | Saved(files: seq<string>) | SaveFailed(error: SaveError)

  predicate IsReport(ev: SaveEvent) {
    !ev.Copied?
  }

  /** One `asyncEach` handler call of `Entries.save`. */
  function SaveStep(s: Snapshot, t: Table, files: seq<string>, entry: Entry, left: nat): Step<SaveEvent> {
    if !IsFile(entry) then Step([], CallNext)
    else
      var dest := Destination(t, entry.name);
      if Exists(s, entry, dest) then
        if left > 0 then Step([], CallNext) else Step([Saved(files)], Return)
      else
        match dest
        case None => Step([SaveFailed(NoDestination)], Return)
        case Some(d) =>
          if d in s.mkdirErrors then Step([SaveFailed(MkdirFailed(s.mkdirErrors[d]))], Return)
          else if entry in s.copyErrors then Step([Copied(entry, d), SaveFailed(CopyFailed(s.copyErrors[entry]))], Return)
          else if left == 0 then Step([Copied(entry, d), Saved(files)], Return)
          else Step([Copied(entry, d)], CallNext)
  }

  function SaveHandler(s: Snapshot, t: Table, files: seq<string>): (Entry, nat) -> Step<SaveEvent> {
    (e: Entry, left: nat) => SaveStep(s, t, files, e, left)
  }

  /** `Entries.save`: list the archive, build the path table, then copy each
      file entry that does not already exist. */
  function Save(listing: Result<seq<Entry>>, destination: string, s: Snapshot): seq<SaveEvent> {
    match listing
    case Failure(e) => [SaveFailed(ListFailed(e))]
    case Success(entries) =>
      var t := MapEntries(entries, destination);
      Run(entries, SaveHandler(s, t, Files(t))).emitted
  }

  /** A callback call, if any, is the last thing the run does. */
  lemma {:induction false} SaveReportsLast(items: seq<Entry>, s: Snapshot, t: Table, files: seq<string>)
    ensures forall i :: 0 <= i < |Run(items, SaveHandler(s, t, files)).emitted| && IsReport(Run(items, SaveHandler(s, t, files)).emitted[i])
               ==> i == |Run(items, SaveHandler(s, t, files)).emitted| - 1
    decreases |items|
  {
    if |items| > 0 {
      SaveReportsLast(items[1..], s, t, files);
      var h := SaveHandler(s, t, files);
      var step := h(items[0], |items| - 1);
      var rest := Run(items[1..], h).emitted;
      if step.next == CallNext {
        assert forall i :: 0 <= i < |step.emitted| ==> !IsReport(step.emitted[i]);
        var ev := step.emitted + rest;
        forall i | 0 <= i < |ev| && IsReport(ev[i]) ensures i == |ev| - 1 {
          if i >= |step.emitted| {
            assert ev[i] == rest[i - |step.emitted|];
          }
        }
      }
    }
  }

  /** Only a file entry that does not exist yet is copied, to its table path. */
  lemma {:induction false} SaveCopiesMissing(items: seq<Entry>, s: Snapshot, t: Table, files: seq<string>, ev: SaveEvent)
    requires ev in Run(items, SaveHandler(s, t, files)).emitted && ev.Copied?
    ensures ev.entry in items && IsFile(ev.entry)
    ensures Destination(t, ev.entry.name) == Some(ev.dest)
    ensures !Exists(s, ev.entry, Some(ev.dest))
    decreases |items|
  {
    var h := SaveHandler(s, t, files);
    var step := h(items[0], |items| - 1);
    if ev !in step.emitted {
      SaveCopiesMissing(items[1..], s, t, files, ev);
    }
  }

  /** A successful save visited every entry and copied every file entry that
      did not exist; it reports the whole path table. */
  lemma {:induction false} SaveCompleteCopies(items: seq<Entry>, s: Snapshot, t: Table, files: seq<string>, f: seq<string>)
    requires Saved(f) in Run(items, SaveHandler(s, t, files)).emitted
    ensures f == files
    ensures forall j :: 0 <= j < |items| && IsFile(items[j]) ==> Destination(t, items[j].name).Some?
    ensures forall j :: (0 <= j < |items| && IsFile(items[j]) && !Exists(s, items[j], Destination(t, items[j].name)))
               ==> Copied(items[j], Destination(t, items[j].name).value) in Run(items, SaveHandler(s, t, files)).emitted
    decreases |items|
  {
    var h := SaveHandler(s, t, files);
    var step := h(items[0], |items| - 1);
    var ev := Run(items, h).emitted;
    if step.next == CallNext {
      var rest := Run(items[1..], h).emitted;
      assert ev == step.emitted + rest;
      SaveCompleteCopies(items[1..], s, t, files, f);
      forall j | 1 <= j < |items| ensures items[j] == items[1..][j - 1] { }
    } else {
      assert ev == step.emitted;
      assert |items| == 1;
    }
  }

  /** A save whose last entry is not a file never reports success. */
  lemma {:induction false} SaveNeedsFinalFile(items: seq<Entry>, s: Snapshot, t: Table, files: seq<string>, f: seq<string>)
    requires |items| == 0 || !IsFile(items[|items| - 1])
    ensures Saved(f) !in Run(items, SaveHandler(s, t, files)).emitted
    decreases |items|
  {
    if |items| > 1 {
      assert items[1..][|items| - 2] == items[|items| - 1];
      SaveNeedsFinalFile(items[1..], s, t, files, f);
    }
  }

  /** A save does not fail on this entry: it is not a file, or it has a
      string name and either exists already or can be copied to its
      sanitised path. */
  predicate CleanEntry(s: Snapshot, destination: string, e: Entry) {
    !IsFile(e) ||
    (e.name.Text? &&
      var d := PathSanitizer.EntryPath(e.name.value, destination);
      (e in s.downloaded && d in s.present) || (d !in s.mkdirErrors && e !in s.copyErrors))
  }

  /** The error a save reports for an entry it cannot save: no path for a
      name that is not a string, then a failed `mkdirp`, then a failed copy. */
  function SaveErrorOf(s: Snapshot, destination: string, e: Entry): SaveError
    requires !CleanEntry(s, destination, e)
  {
    if !e.name.Text? then NoDestination
    else
      var d := PathSanitizer.EntryPath(e.name.value, destination);
      if d in s.mkdirErrors then MkdirFailed(s.mkdirErrors[d]) else CopyFailed(s.copyErrors[e])
  }

  /** Entry `i` is the first one the save fails on. */
  predicate FailsFirst(items: seq<Entry>, s: Snapshot, destination: string, i: nat) {
    i < |items| && !CleanEntry(s, destination, items[i])
    && forall j :: 0 <= j < i ==> CleanEntry(s, destination, items[j])
  }

  /** The table gives every listed file entry with a string name its
      sanitised path. */
  predicate TableFits(items: seq<Entry>, t: Table, destination: string) {
    forall j :: 0 <= j < |items| && IsFile(items[j]) && items[j].name.Text?
      ==> Destination(t, items[j].name) == Some(PathSanitizer.EntryPath(items[j].name.value, destination))
  }

  lemma TableFitsTail(items: seq<Entry>, t: Table, destination: string)
    requires |items| > 0 && TableFits(items, t, destination)
    ensures TableFits(items[1..], t, destination)
  {
    forall j | 0 <= j < |items[1..]| ensures items[1..][j] == items[j + 1] { }
  }

  /** A clean entry that is not the last lets the save go on. */
  lemma CleanStepContinues(s: Snapshot, t: Table, files: seq<string>, destination: string, e: Entry, left: nat)
    requires CleanEntry(s, destination, e) && left > 0
    requires IsFile(e) && e.name.Text? ==> Destination(t, e.name) == Some(PathSanitizer.EntryPath(e.name.value, destination))
    ensures SaveStep(s, t, files, e, left).next == CallNext
    ensures forall ev :: ev in SaveStep(s, t, files, e, left).emitted ==> ev.Copied?
  {
  }

  /** An entry the save fails on ends the save with its error. */
  lemma FailingStepStops(s: Snapshot, t: Table, files: seq<string>, destination: string, e: Entry, left: nat)
    requires !CleanEntry(s, destination, e)
    requires IsFile(e) && e.name.Text? ==> Destination(t, e.name) == Some(PathSanitizer.EntryPath(e.name.value, destination))
    ensures SaveStep(s, t, files, e, left).next == Return
    ensures var em := SaveStep(s, t, files, e, left).emitted;
      |em| > 0 && em[|em| - 1] == SaveFailed(SaveErrorOf(s, destination, e))
  {
  }

  /** A step reports an error only for an entry the save fails on, and that
      error is the entry's; such an entry ends the save. */
  lemma StepFailures(s: Snapshot, t: Table, files: seq<string>, destination: string, e: Entry, left: nat)
    requires IsFile(e) && e.name.Text? ==> Destination(t, e.name) == Some(PathSanitizer.EntryPath(e.name.value, destination))
    ensures forall err :: SaveFailed(err) in SaveStep(s, t, files, e, left).emitted ==>
      !CleanEntry(s, destination, e) && err == SaveErrorOf(s, destination, e)
    ensures !CleanEntry(s, destination, e) ==> SaveStep(s, t, files, e, left).next == Return
  {
  }

  /** A clean last entry ends the save with the file list. */
  lemma CleanLastStepSaves(s: Snapshot, t: Table, files: seq<string>, destination: string, e: Entry)
    requires CleanEntry(s, destination, e) && IsFile(e)
    requires e.name.Text? ==> Destination(t, e.name) == Some(PathSanitizer.EntryPath(e.name.value, destination))
    ensures SaveStep(s, t, files, e, 0).next == Return
    ensures var em := SaveStep(s, t, files, e, 0).emitted;
      |em| > 0 && em[|em| - 1] == Saved(files)
  {
  }

  /** Dropping a clean first entry moves the first failing entry one place
      forward, and putting a clean entry in front moves it one place back. */
  lemma FailsFirstShift(items: seq<Entry>, s: Snapshot, destination: string, i: nat)
    requires |items| > 0 && CleanEntry(s, destination, items[0])
    ensures FailsFirst(items, s, destination, i + 1) <==> FailsFirst(items[1..], s, destination, i)
    ensures i < |items[1..]| ==> items[1..][i] == items[i + 1]
  {
    if FailsFirst(items[1..], s, destination, i) {
      forall j | 0 <= j < i + 1 ensures CleanEntry(s, destination, items[j]) {
        if j > 0 {
          assert items[j] == items[1..][j - 1];
        }
      }
    }
    if FailsFirst(items, s, destination, i + 1) {
      forall j | 0 <= j < i ensures CleanEntry(s, destination, items[1..][j]) {
        assert items[1..][j] == items[j + 1];
      }
    }
  }

  /** The entries after the first of an all-clean list are all clean. */
  lemma AllCleanTail(items: seq<Entry>, s: Snapshot, destination: string)
    requires |items| > 0
    requires forall j :: 0 <= j < |items| ==> CleanEntry(s, destination, items[j])
    ensures forall j :: 0 <= j < |items[1..]| ==> CleanEntry(s, destination, items[1..][j])
  {
    forall j | 0 <= j < |items[1..]| ensures CleanEntry(s, destination, items[1..][j]) {
      assert items[1..][j] == items[j + 1];
    }
  }

  /** When the first handler call continues, the run ends as the rest of it does. */
  lemma RunEndsAsRest<T, R>(items: seq<T>, h: (T, nat) -> Step<R>)
    requires |items| > 1 && h(items[0], |items| - 1).next == CallNext
    requires |Run(items[1..], h).emitted| > 0
    ensures var ev := Run(items, h).emitted;
      var rest := Run(items[1..], h).emitted;
      |ev| > 0 && ev[|ev| - 1] == rest[|rest| - 1]
  {
    var rest := Run(items[1..], h).emitted;
    assert Run(items, h).emitted == h(items[0], |items| - 1).emitted + rest;
  }

  /** A run emits what its first handler call emits, then, if that call
      continues, what the rest of the run emits. */
  lemma RunHead<T, R>(items: seq<T>, h: (T, nat) -> Step<R>)
    requires |items| > 0
    ensures var step := h(items[0], |items| - 1);
      Run(items, h).emitted == step.emitted + (if step.next == CallNext then Run(items[1..], h).emitted else [])
  {
    var step := h(items[0], |items| - 1);
    if step.next != CallNext {
      assert step.emitted + [] == step.emitted;
    }
  }

  /** When the first handler call does not continue, the run is that call. */
  lemma RunStopsAtFirst<T, R>(items: seq<T>, h: (T, nat) -> Step<R>)
    requires |items| > 0 && h(items[0], |items| - 1).next != CallNext
    ensures Run(items, h).emitted == h(items[0], |items| - 1).emitted
  {
  }

  /** A listing of clean entries that ends in a file entry completes: the
      last thing the save does is report the file list. */
  lemma {:induction false} SaveRunSucceeds(items: seq<Entry>, s: Snapshot, t: Table, files: seq<string>, destination: string)
    requires TableFits(items, t, destination)
    requires |items| > 0 && IsFile(items[|items| - 1])
    requires forall j :: 0 <= j < |items| ==> CleanEntry(s, destination, items[j])
    ensures var ev := Run(items, SaveHandler(s, t, files)).emitted;
      |ev| > 0 && ev[|ev| - 1] == Saved(files)
    decreases |items|
  {
    if |items| > 1 {
      TableFitsTail(items, t, destination);
      assert items[1..][|items[1..]| - 1] == items[|items| - 1];
      AllCleanTail(items, s, destination);
      SaveRunSucceeds(items[1..], s, t, files, destination);
      CleanHeadEndsAsRest(items, s, t, files, destination);
    } else {
      CleanLastStepSaves(s, t, files, destination, items[0]);
      RunStopsAtFirst(items, SaveHandler(s, t, files));
    }
  }

  /** When entry `i` is the first the save fails on, the last thing the save
      does is report that entry's error. */
  lemma {:induction false} SaveRunFirstError(items: seq<Entry>, s: Snapshot, t: Table, files: seq<string>, destination: string, i: nat)
    requires TableFits(items, t, destination)
    requires FailsFirst(items, s, destination, i)
    ensures var ev := Run(items, SaveHandler(s, t, files)).emitted;
      |ev| > 0 && ev[|ev| - 1] == SaveFailed(SaveErrorOf(s, destination, items[i]))
    decreases |items|
  {
    if i > 0 {
      TableFitsTail(items, t, destination);
      FailsFirstShift(items, s, destination, i - 1);
      SaveRunFirstError(items[1..], s, t, files, destination, i - 1);
      CleanHeadEndsAsRest(items, s, t, files, destination);
    } else {
      FailingStepStops(s, t, files, destination, items[0], |items| - 1);
      RunStopsAtFirst(items, SaveHandler(s, t, files));
    }
  }

  /** A clean first entry that is not the last leaves the end of the save to
      the entries after it. */
  lemma CleanHeadEndsAsRest(items: seq<Entry>, s: Snapshot, t: Table, files: seq<string>, destination: string)
    requires |items| > 1 && CleanEntry(s, destination, items[0])
    requires IsFile(items[0]) && items[0].name.Text? ==>
      Destination(t, items[0].name) == Some(PathSanitizer.EntryPath(items[0].name.value, destination))
    requires |Run(items[1..], SaveHandler(s, t, files)).emitted| > 0
    ensures var ev := Run(items, SaveHandler(s, t, files)).emitted;
      var rest := Run(items[1..], SaveHandler(s, t, files)).emitted;
      |ev| > 0 && ev[|ev| - 1] == rest[|rest| - 1]
  {
    var h := SaveHandler(s, t, files);
    CleanStepContinues(s, t, files, destination, items[0], |items| - 1);
    assert h(items[0], |items| - 1) == SaveStep(s, t, files, items[0], |items| - 1);
    RunEndsAsRest(items, h);
  }

  /** Every error a save reports is that of the first entry it fails on. */
  lemma {:induction false} SaveRunErrorIsFirst(items: seq<Entry>, s: Snapshot, t: Table, files: seq<string>, destination: string, err: SaveError)
    requires TableFits(items, t, destination)
    requires SaveFailed(err) in Run(items, SaveHandler(s, t, files)).emitted
    ensures exists i: nat :: FailsFirst(items, s, destination, i) && err == SaveErrorOf(s, destination, items[i])
    decreases |items|
  {
    var h := SaveHandler(s, t, files);
    var step := SaveStep(s, t, files, items[0], |items| - 1);
    assert h(items[0], |items| - 1) == step;
    RunHead(items, h);
    StepFailures(s, t, files, destination, items[0], |items| - 1);
    if SaveFailed(err) in step.emitted {
      assert FailsFirst(items, s, destination, 0);
    } else {
      TableFitsTail(items, t, destination);
      assert SaveFailed(err) in Run(items[1..], h).emitted;
      SaveRunErrorIsFirst(items[1..], s, t, files, destination, err);
      var k: nat :| FailsFirst(items[1..], s, destination, k) && err == SaveErrorOf(s, destination, items[1..][k]);
      FailsFirstShift(items, s, destination, k);
    }
  }

  /** The table of a listing fits it. */
  lemma MapEntriesFits(entries: seq<Entry>, destination: string)
    ensures TableFits(entries, MapEntries(entries, destination), destination)
  {
    forall j | 0 <= j < |entries| && IsFile(entries[j]) && entries[j].name.Text?
      ensures Destination(MapEntries(entries, destination), entries[j].name)
           == Some(PathSanitizer.EntryPath(entries[j].name.value, destination))
    {
      DestinationOfFile(entries, destination, j);
    }
  }

  /** A successful listing whose entries are all clean and whose last entry
      is a file completes: the save reports the file list, last and once,
      and reports no error. */
  lemma SaveSucceeds(listing: Result<seq<Entry>>, destination: string, s: Snapshot)
    requires listing.Success? && |listing.value| > 0 && IsFile(listing.value[|listing.value| - 1])
    requires forall j :: 0 <= j < |listing.value| ==> CleanEntry(s, destination, listing.value[j])
    ensures var ev := Save(listing, destination, s);
      && |ev| > 0 && ev[|ev| - 1] == Saved(Files(MapEntries(listing.value, destination)))
      && forall e :: SaveFailed(e) !in ev
  {
    var entries := listing.value;
    var t := MapEntries(entries, destination);
    var ev := Save(listing, destination, s);
    MapEntriesFits(entries, destination);
    SaveRunSucceeds(entries, s, t, Files(t), destination);
    SaveReportsLast(entries, s, t, Files(t));
  }

  /** The first error wins: when the save fails, it reports the error of the
      first entry it fails on, every entry before that one being clean; and
      when some entry fails, the save ends by reporting the first one's error. */
  lemma SaveFirstErrorWins(listing: Result<seq<Entry>>, destination: string, s: Snapshot)
    requires listing.Success?
    ensures forall err :: SaveFailed(err) in Save(listing, destination, s) ==>
      exists i: nat :: FailsFirst(listing.value, s, destination, i) && err == SaveErrorOf(s, destination, listing.value[i])
    ensures forall i: nat :: FailsFirst(listing.value, s, destination, i) ==>
      var ev := Save(listing, destination, s);
      |ev| > 0 && ev[|ev| - 1] == SaveFailed(SaveErrorOf(s, destination, listing.value[i]))
  {
    var entries := listing.value;
    var t := MapEntries(entries, destination);
    MapEntriesFits(entries, destination);
    forall err | SaveFailed(err) in Save(listing, destination, s)
      ensures exists i: nat :: FailsFirst(entries, s, destination, i) && err == SaveErrorOf(s, destination, entries[i])
    {
      SaveRunErrorIsFirst(entries, s, t, Files(t), destination, err);
    }
    forall i: nat | FailsFirst(entries, s, destination, i)
      ensures var ev := Save(listing, destination, s);
        |ev| > 0 && ev[|ev| - 1] == SaveFailed(SaveErrorOf(s, destination, entries[i]))
    {
      SaveRunFirstError(entries, s, t, Files(t), destination, i);
    }
  }

  /** What `Entries.save` promises about a listing: a listing error is the one
      report; any report comes last; only missing file entries are copied, to
      their sanitised paths; success means every missing file was copied and
      reports every mapped path; an empty listing or a listing ending in a
      non-file entry never succeeds. */
  lemma SaveOutcome(listing: Result<seq<Entry>>, destination: string, s: Snapshot)
    ensures listing.Failure? ==> Save(listing, destination, s) == [SaveFailed(ListFailed(listing.error))]
    ensures forall i :: 0 <= i < |Save(listing, destination, s)| && IsReport(Save(listing, destination, s)[i])
               ==> i == |Save(listing, destination, s)| - 1
    ensures listing.Success? ==> forall e, d :: Copied(e, d) in Save(listing, destination, s) ==>
      && e in listing.value && IsFile(e) && e.name.Text?
      && d == PathSanitizer.EntryPath(e.name.value, destination)
      && !(e in s.downloaded && d in s.present)
    ensures listing.Success? ==> forall f :: Saved(f) in Save(listing, destination, s) ==>
      && f == Files(MapEntries(listing.value, destination))
      && (forall j :: 0 <= j < |listing.value| && IsFile(listing.value[j]) ==>
            && listing.value[j].name.Text?
            && var d := PathSanitizer.EntryPath(listing.value[j].name.value, destination);
               (listing.value[j] in s.downloaded && d in s.present) || Copied(listing.value[j], d) in Save(listing, destination, s))
    ensures listing.Success? && (|listing.value| == 0 || !IsFile(listing.value[|listing.value| - 1])) ==>
      forall f :: Saved(f) !in Save(listing, destination, s)
  {
    if listing.Success? {
      var entries := listing.value;
      var t := MapEntries(entries, destination);
      var files := Files(t);
      var ev := Save(listing, destination, s);
      assert ev == Run(entries, SaveHandler(s, t, files)).emitted;
      SaveReportsLast(entries, s, t, files);
      forall e, d | Copied(e, d) in ev
        ensures e in entries && IsFile(e) && e.name.Text?
        ensures d == PathSanitizer.EntryPath(e.name.value, destination)
        ensures !(e in s.downloaded && d in s.present)
      {
        SaveCopiesMissing(entries, s, t, files, Copied(e, d));
        var j :| 0 <= j < |entries| && entries[j] == e;
        DestinationOfFile(entries, destination, j);
      }
      forall f | Saved(f) in ev
        ensures f == files
        ensures forall j :: 0 <= j < |entries| && IsFile(entries[j]) ==>
            && entries[j].name.Text?
            && var d := PathSanitizer.EntryPath(entries[j].name.value, destination);
               (entries[j] in s.downloaded && d in s.present) || Copied(entries[j], d) in ev
      {
        SaveCompleteCopies(entries, s, t, files, f);
        forall j | 0 <= j < |entries| && IsFile(entries[j])
          ensures entries[j].name.Text?
          ensures var d := PathSanitizer.EntryPath(entries[j].name.value, destination);
               (entries[j] in s.downloaded && d in s.present) || Copied(entries[j], d) in ev
        {
          DestinationOfFile(entries, destination, j);
        }
      }
      if |entries| == 0 || !IsFile(entries[|entries| - 1]) {
        forall f ensures Saved(f) !in ev {
          SaveNeedsFinalFile(entries, s, t, files, f);
        }
      }
    }
  }
}

=== FILE: feed_tracker.dfy ===
/** `FeedTracker` of src/archiver.js: feeds opened for replication are shared
    per discovery key and reference counted; the last close removes the slot
    and closes the feed. The discovery hash and the feed factory are
    parameters. */
module FeedTracker {
  import opened Wrappers

  /** One tracked feed and the number of opens not yet closed. */
  datatype Slot<F> = Slot(count: int, feed: F)

  /** The tracker's `feeds` object, keyed by hex discovery key. */
  datatype Tracker<F> = Tracker(feeds: map<string, Slot<F>>)

  /** Every tracked slot has at least one open outstanding. */
  ghost predicate Valid<F>(t: Tracker<F>) {
    forall d :: d in t.feeds ==> t.feeds[d].count >= 1
  }

  datatype Opened<F> = Opened(tracker: Tracker<F>, feed: F)

  /** `open(key, feed)`: reuse the slot of the key's discovery key, or create
      one holding the given feed (or a new one from the factory); count the
      open and return the slot's feed. */
  function Open<K, F>(t: Tracker<F>, discovery: K -> string, create: K -> F, key: K, given: Option<F>): (r: Opened<F>)
    ensures discovery(key) in r.tracker.feeds
    ensures discovery(key) in t.feeds ==>
      && r.feed == t.feeds[discovery(key)].feed
      && r.tracker.feeds[discovery(key)] == Slot(t.feeds[discovery(key)].count + 1, r.feed)
    ensures discovery(key) !in t.feeds ==>
      && r.feed == (match given case Some(f) => f case None => create(key))
      && r.tracker.feeds[discovery(key)] == Slot(1, r.feed)
    ensures forall d :: d != discovery(key) ==> (d in r.tracker.feeds <==> d in t.feeds)
    ensures forall d :: d != discovery(key) && d in t.feeds ==> r.tracker.feeds[d] == t.feeds[d]
    ensures Valid(t) ==> Valid(r.tracker)
  {
    var d := discovery(key);
    var slot := if d in t.feeds then t.feeds[d] else Slot(0, given.GetOr(create(key)));
    Opened(Tracker(t.feeds[d := Slot(slot.count + 1, slot.feed)]), slot.feed)
  }

  datatype Closed<F> = Closed(tracker: Tracker<F>, closesFeed: bool)

  /** `close(feed)` for a feed whose discovery key is `d`: reading the count of
      an untracked key throws; otherwise the count drops by one and a count
      that reaches zero removes the slot and closes the feed. */
  function Close<F>(t: Tracker<F>, d: string): (r: Result<Closed<F>>)
    ensures r.Failure? <==> d !in t.feeds
    ensures r.Success? ==> (r.value.closesFeed <==> t.feeds[d].count <= 1)
    ensures r.Success? && r.value.closesFeed ==> r.value.tracker.feeds == t.feeds - {d}
    ensures r.Success? && !r.value.closesFeed ==>
      r.value.tracker.feeds == t.feeds[d := t.feeds[d].(count := t.feeds[d].count - 1)]
    ensures r.Success? && Valid(t) ==> Valid(r.value.tracker)
  {
    if d !in t.feeds then Failure("Cannot read properties of undefined (reading 'count')")
    else
      var count := t.feeds[d].count - 1;
      if count <= 0 then Success(Closed(Tracker(t.feeds - {d}), true))
      else Success(Closed(Tracker(t.feeds[d := t.feeds[d].(count := count)]), false))
  }

  /** Closing right after an open undoes it, and closes the feed exactly when
      the open created the slot. */
  lemma OpenCloseRoundTrip<K, F>(t: Tracker<F>, discovery: K -> string, create: K -> F, key: K, given: Option<F>)
    requires Valid(t)
    ensures var o := Open(t, discovery, create, key, given);
      Close(o.tracker, discovery(key)) == Success(Closed(t, discovery(key) !in t.feeds))
  {
    var d := discovery(key);
    var o := Open(t, discovery, create, key, given);
    var c := Close(o.tracker, d);
    if d in t.feeds {
      assert c.value.tracker.feeds == t.feeds;
    } else {
      assert c.value.tracker.feeds == t.feeds;
    }
  }

  /** `n` opens of one key. */
  function OpenTimes<K, F>(t: Tracker<F>, discovery: K -> string, create: K -> F, key: K, given: Option<F>, n: nat): Tracker<F>
    decreases n
  {
    if n == 0 then t else OpenTimes(Open(t, discovery, create, key, given).tracker, discovery, create, key, given, n - 1)
  }

  /** `n` closes of one discovery key, stopping at the first that throws. */
  function CloseTimes<F>(t: Tracker<F>, d: string, n: nat): Result<Tracker<F>>
    decreases n
  {
    if n == 0 then Success(t)
    else match Close(t, d)
      case Failure(e) => Failure(e)
      case Success(c) => CloseTimes(c.tracker, d, n - 1)
  }

  /** After `n` opens of an untracked key, its slot counts `n`, and every
      open shares the feed of the first. */
  lemma {:induction false} OpenTimesCount<K, F>(t: Tracker<F>, discovery: K -> string, create: K -> F, key: K, given: Option<F>, n: nat)
    requires Valid(t) && n >= 1
    ensures var u := OpenTimes(t, discovery, create, key, given, n);
      && Valid(u)
      && discovery(key) in u.feeds
      && u.feeds[discovery(key)].count == n + (if discovery(key) in t.feeds then t.feeds[discovery(key)].count else 0)
      && u.feeds[discovery(key)].feed == Open(t, discovery, create, key, given).feed
      && u.feeds - {discovery(key)} == t.feeds - {discovery(key)}
    decreases n
  {
    var o := Open(t, discovery, create, key, given);
    if n > 1 {
      OpenTimesCount(o.tracker, discovery, create, key, given, n - 1);
      assert o.tracker.feeds - {discovery(key)} == t.feeds - {discovery(key)};
    } else {
      assert o.tracker.feeds - {discovery(key)} == t.feeds - {discovery(key)};
    }
  }

  /** From a slot counting `n`, `n` closes remove exactly that slot. */
  lemma {:induction false} CloseTimesRemoves<F>(t: Tracker<F>, d: string, n: nat)
    requires Valid(t) && n >= 1 && d in t.feeds && t.feeds[d].count == n
    ensures CloseTimes(t, d, n) == Success(Tracker(t.feeds - {d}))
    decreases n
  {
    if n > 1 {
      var c := Close(t, d).value;
      CloseTimesRemoves(c.tracker, d, n - 1);
      assert c.tracker.feeds - {d} == t.feeds - {d};
    }
  }

  /** Balanced use restores the tracker: `n` opens of an untracked key
      followed by `n` closes leave the tracker as it was. */
  lemma BalancedOpensAndCloses<K, F>(t: Tracker<F>, discovery: K -> string, create: K -> F, key: K, given: Option<F>, n: nat)
    requires Valid(t) && n >= 1 && discovery(key) !in t.feeds
    ensures CloseTimes(OpenTimes(t, discovery, create, key, given, n), discovery(key), n) == Success(t)
  {
    var d := discovery(key);
    var u := OpenTimes(t, discovery, create, key, given, n);
    OpenTimesCount(t, discovery, create, key, given, n);
    CloseTimesRemoves(u, d, n);
    assert u.feeds - {d} == t.feeds;
  }
}

=== FILE: gc_job.dfy ===
/** `GCJob` of src/memory.js: a periodic garbage-collection timer with two
    states, stopped and running. Whether the runtime exposes `global.gc` is
    a parameter; the timer itself and the debug log lines are abstracted to
    the effects below. */
module GcJob {
  import opened Wrappers

  /** 30 minutes, in milliseconds. */
  const DefaultInterval := 1800 * 1000

  const NotExposed := "Global GC is not exposed; collection job won't be started"
  const AlreadyStarted := "GC job already started"
  const NotStarted := "GC job not started"

  /** The job: whether it holds an interval timer, and the period. */
  datatype Job = Job(running: bool, interval: int)

  /** What a transition does outside the job: log a warning, schedule the
      collection every `period` ms, or clear the timer. */
  datatype Effect = Warn(message: string) | Schedule(period: int) | Clear

  datatype Transition = Transition(job: Job, effect: Effect)

  /** `new GCJob(interval)`: a falsy interval takes the default. */
  function NewJob(interval: Option<int>): (j: Job)
    ensures !j.running
    ensures interval.None? || interval == Some(0) ==> j.interval == DefaultInterval
    ensures interval.Some? && interval.value != 0 ==> j.interval == interval.value
  {
    Job(false, match interval case Some(i) => (if i != 0 then i else DefaultInterval) case None => DefaultInterval)
  }

  /** `start()`. */
  function Start(j: Job, gcExposed: bool): (t: Transition)
    ensures t.job.interval == j.interval
    ensures !gcExposed ==> t == Transition(j, Warn(NotExposed))
    ensures gcExposed && j.running ==> t == Transition(j, Warn(AlreadyStarted))
    ensures gcExposed && !j.running ==> t.job.running && t.effect == Schedule(j.interval)
  {
    if !gcExposed then Transition(j, Warn(NotExposed))
    else if j.running then Transition(j, Warn(AlreadyStarted))
    else Transition(j.(running := true), Schedule(j.interval))
  }

  /** `stop()`. */
  function Stop(j: Job): (t: Transition)
    ensures t.job.interval == j.interval
    ensures !j.running ==> t == Transition(j, Warn(NotStarted))
    ensures j.running ==> !t.job.running && t.effect == Clear
  {
    if !j.running then Transition(j, Warn(NotStarted))
    else Transition(j.(running := false), Clear)
  }

  /** `isRunning()`. */
  function IsRunning(j: Job): bool {
    j.running
  }

  /** A job runs after `start` exactly when the collector is exposed or it
      already ran; starting twice schedules once; a stop after a successful
      start returns the job to its initial state; stopping twice clears once. */
  lemma StartStopProtocol(j: Job, gcExposed: bool)
    ensures IsRunning(Start(j, gcExposed).job) <==> gcExposed || IsRunning(j)
    ensures Start(Start(j, gcExposed).job, gcExposed).job == Start(j, gcExposed).job
    ensures gcExposed && !IsRunning(j) ==> Start(Start(j, true).job, true).effect == Warn(AlreadyStarted)
    ensures !IsRunning(j) && gcExposed ==> Stop(Start(j, gcExposed).job).job == j
    ensures !IsRunning(Stop(j).job)
    ensures Stop(Stop(j).job) == Transition(Stop(j).job, Warn(NotStarted))
  {
  }
}

=== FILE: logger.dfy ===
/** The console log line format of src/logger.js: zero-padded clock fields,
    the `YYYY-MM-DD hh:mm:ss.mmm` timestamp, and the line formatter. The
    clock reading and `JSON.stringify` of the metadata are inputs. */
module Logger {
  import opened Wrappers
  import opened Decimal

  /** `twoDigits`: prefix one zero, keep the last two characters. */
  function TwoDigits(n: nat): (s: string)
    ensures |s| == 2 && AllDigits(s)
  {
    SliceLast("0" + NatToString(n), 2)
  }

  /** `threeDigits`: prefix two zeros, keep the last three characters. */
  function ThreeDigits(n: nat): (s: string)
    ensures |s| == 3 && AllDigits(s)
  {
    SliceLast("00" + NatToString(n), 3)
  }

  /** The padded fields denote the number modulo 100 and 1000: exactly the
      number when it fits, the low digits when it does not. */
  lemma TwoDigitsValue(n: nat)
    ensures DigitsValue(TwoDigits(n)) == n % 100
  {
    var s := "0" + NatToString(n);
    NatToStringRoundTrip(n);
    LeadingZero(NatToString(n));
    assert TwoDigits(n) == s[|s| - 2..];
    SuffixValue(s, 2);
    assert Pow10(2) == 100;
  }

  lemma ThreeDigitsValue(n: nat)
    ensures DigitsValue(ThreeDigits(n)) == n % 1000
  {
    var t := NatToString(n);
    var s := "00" + t;
    NatToStringRoundTrip(n);
    LeadingZero(t);
    LeadingZero("0" + t);
    assert "0" + ("0" + t) == s;
    assert ThreeDigits(n) == s[|s| - 3..];
    SuffixValue(s, 3);
    assert Pow10(3) == 1000;
  }

  /** A number that fits its field reads back unchanged. */
  lemma PaddedInRange(n: nat)
    ensures n < 100 ==> DigitsValue(TwoDigits(n)) == n
    ensures n < 1000 ==> DigitsValue(ThreeDigits(n)) == n
  {
    TwoDigitsValue(n);
    ThreeDigitsValue(n);
    if n < 100 {
      ModUnique(n, 0, n, 100);
    }
    if n < 1000 {
      ModUnique(n, 0, n, 1000);
    }
  }

  /** The parts of a `Date` the timestamp reads, as its getters return them:
      `month0` is `getMonth()`, which counts from 0. */
  datatype DateParts = DateParts(year: int, month0: nat, day: nat, hours: nat,
                                 minutes: nat, seconds: nat, millis: nat)

  predicate ValidDate(d: DateParts) {
    d.month0 < 12 && 1 <= d.day <= 31 && d.hours < 24 && d.minutes < 60
    && d.seconds < 60 && d.millis < 1000
  }

  /** The fields a timestamp string shows, read back as numbers. */
  datatype Fields = Fields(year: nat, month: nat, day: nat, hours: nat,
                           minutes: nat, seconds: nat, millis: nat)

  /** `YYYY-MM-DD` around already chosen numbers. */
  function DateText(year: int, month: nat, day: nat): string {
    IntToString(year) + "-" + TwoDigits(month) + "-" + TwoDigits(day)
  }

  /** `hh:mm:ss.mmm` around already chosen numbers. */
  function TimeText(hours: nat, minutes: nat, seconds: nat, millis: nat): string {
    TwoDigits(hours) + ":" + TwoDigits(minutes) + ":" + TwoDigits(seconds)
    + "." + ThreeDigits(millis)
  }

  /** `timestamp()` as written: the month field is `getMonth()` itself. */
  function Timestamp(d: DateParts): string {
    DateText(d.year, d.month0, d.day) + " " + TimeText(d.hours, d.minutes, d.seconds, d.millis)
  }

  /** The evidently intended timestamp: the calendar month, 1 to 12. */
  function CalendarTimestamp(d: DateParts): string {
    DateText(d.year, d.month0 + 1, d.day) + " " + TimeText(d.hours, d.minutes, d.seconds, d.millis)
  }

  /** `YYYY-MM-DD`: separators in their places and digits elsewhere. */
  predicate DateShaped(s: string) {
    |s| == 10 && s[4] == '-' && s[7] == '-'
    && AllDigits(s[..4]) && AllDigits(s[5..7]) && AllDigits(s[8..])
  }

  /** `hh:mm:ss.mmm`: separators in their places and digits elsewhere. */
  predicate TimeShaped(s: string) {
    |s| == 12 && s[2] == ':' && s[5] == ':' && s[8] == '.'
    && AllDigits(s[..2]) && AllDigits(s[3..5]) && AllDigits(s[6..8]) && AllDigits(s[9..])
  }

  /** A well-formed timestamp: 23 characters, a date, a space and a time. */
  predicate WellFormed(ts: string) {
    |ts| == 23 && ts[10] == ' ' && DateShaped(ts[..10]) && TimeShaped(ts[11..])
  }

  /** Reads a timestamp back into its fields; `None` unless well formed. */
  function Parse(ts: string): (f: Option<Fields>)
    ensures f.Some? <==> WellFormed(ts)
  {
    if WellFormed(ts) then
      var date, time := ts[..10], ts[11..];
      Some(Fields(DigitsValue(date[..4]), DigitsValue(date[5..7]), DigitsValue(date[8..]),
                  DigitsValue(time[..2]), DigitsValue(time[3..5]), DigitsValue(time[6..8]),
                  DigitsValue(time[9..])))
    else None
  }

  /** A four-digit year and fields in range give a well-formed timestamp
      whose fields read back as the numbers laid out. */
  lemma LayoutRoundTrip(year: int, month: nat, day: nat, hours: nat, minutes: nat,
                        seconds: nat, millis: nat)
    requires 1000 <= year <= 9999
    requires month < 100 && day < 100 && hours < 100 && minutes < 100
    requires seconds < 100 && millis < 1000
    ensures Parse(DateText(year, month, day) + " " + TimeText(hours, minutes, seconds, millis))
         == Some(Fields(year, month, day, hours, minutes, seconds, millis))
  {
    var date, time := DateText(year, month, day), TimeText(hours, minutes, seconds, millis);
    DateRoundTrip(year, month, day);
    TimeRoundTrip(hours, minutes, seconds, millis);
    JoinParts(date, time);
  }

  /** A date and a time joined by a space read back as their fields. */
  lemma JoinParts(date: string, time: string)
    requires DateShaped(date) && TimeShaped(time)
    ensures Parse(date + " " + time)
         == Some(Fields(DigitsValue(date[..4]), DigitsValue(date[5..7]), DigitsValue(date[8..]),
                        DigitsValue(time[..2]), DigitsValue(time[3..5]), DigitsValue(time[6..8]),
                        DigitsValue(time[9..])))
  {
    var ts := date + " " + time;
    assert ts[..10] == date && ts[11..] == time;
  }

  lemma DateRoundTrip(year: int, month: nat, day: nat)
    requires 1000 <= year <= 9999 && month < 100 && day < 100
    ensures DateShaped(DateText(year, month, day))
    ensures DigitsValue(DateText(year, month, day)[..4]) == year
    ensures DigitsValue(DateText(year, month, day)[5..7]) == month
    ensures DigitsValue(DateText(year, month, day)[8..]) == day
  {
    var y, mo, da := IntToString(year), TwoDigits(month), TwoDigits(day);
    YearWidth(year);
    DateSlices(y, mo, da);
    NatToStringRoundTrip(year);
    PaddedInRange(month);
    PaddedInRange(day);
  }

  lemma TimeRoundTrip(hours: nat, minutes: nat, seconds: nat, millis: nat)
    requires hours < 100 && minutes < 100 && seconds < 100 && millis < 1000
    ensures TimeShaped(TimeText(hours, minutes, seconds, millis))
    ensures DigitsValue(TimeText(hours, minutes, seconds, millis)[..2]) == hours
    ensures DigitsValue(TimeText(hours, minutes, seconds, millis)[3..5]) == minutes
    ensures DigitsValue(TimeText(hours, minutes, seconds, millis)[6..8]) == seconds
    ensures DigitsValue(TimeText(hours, minutes, seconds, millis)[9..]) == millis
  {
    var ho, mi, se, ms := TwoDigits(hours), TwoDigits(minutes), TwoDigits(seconds), ThreeDigits(millis);
    TimeSlices(ho, mi, se, ms);
    PaddedInRange(hours);
    PaddedInRange(minutes);
    PaddedInRange(seconds);
    PaddedInRange(millis);
  }

  /** Where each part of the date sits. */
  lemma DateSlices(y: string, mo: string, da: string)
    requires |y| == 4 && |mo| == 2 && |da| == 2
    requires AllDigits(y) && AllDigits(mo) && AllDigits(da)
    ensures DateShaped(y + "-" + mo + "-" + da)
    ensures |y + "-" + mo + "-" + da| == 10
    ensures (y + "-" + mo + "-" + da)[..4] == y && (y + "-" + mo + "-" + da)[4] == '-'
    ensures (y + "-" + mo + "-" + da)[5..7] == mo && (y + "-" + mo + "-" + da)[7] == '-'
    ensures (y + "-" + mo + "-" + da)[8..] == da
    ensures DigitsValue((y + "-" + mo + "-" + da)[..4]) == DigitsValue(y)
    ensures DigitsValue((y + "-" + mo + "-" + da)[5..7]) == DigitsValue(mo)
    ensures DigitsValue((y + "-" + mo + "-" + da)[8..]) == DigitsValue(da)
  {
  }

  /** Where each part of the time sits. */
  lemma TimeSlices(ho: string, mi: string, se: string, ms: string)
    requires |ho| == 2 && |mi| == 2 && |se| == 2 && |ms| == 3
    requires AllDigits(ho) && AllDigits(mi) && AllDigits(se) && AllDigits(ms)
    ensures TimeShaped(ho + ":" + mi + ":" + se + "." + ms)
    ensures |ho + ":" + mi + ":" + se + "." + ms| == 12
    ensures (ho + ":" + mi + ":" + se + "." + ms)[..2] == ho
    ensures (ho + ":" + mi + ":" + se + "." + ms)[2] == ':'
    ensures (ho + ":" + mi + ":" + se + "." + ms)[3..5] == mi
    ensures (ho + ":" + mi + ":" + se + "." + ms)[5] == ':'
    ensures (ho + ":" + mi + ":" + se + "." + ms)[6..8] == se
    ensures (ho + ":" + mi + ":" + se + "." + ms)[8] == '.'
    ensures (ho + ":" + mi + ":" + se + "." + ms)[9..] == ms
    ensures DigitsValue((ho + ":" + mi + ":" + se + "." + ms)[..2]) == DigitsValue(ho)
    ensures DigitsValue((ho + ":" + mi + ":" + se + "." + ms)[3..5]) == DigitsValue(mi)
    ensures DigitsValue((ho + ":" + mi + ":" + se + "." + ms)[6..8]) == DigitsValue(se)
    ensures DigitsValue((ho + ":" + mi + ":" + se + "." + ms)[9..]) == DigitsValue(ms)
  {
  }

  /** A four-digit number renders in four characters. */
  lemma YearWidth(year: nat)
    requires 1000 <= year <= 9999
    ensures |NatToString(year)| == 4
  {
    assert NatToString(year) == NatToString(year / 10) + [DigitChar(year % 10)];
    assert NatToString(year / 10) == NatToString(year / 100) + [DigitChar(year / 10 % 10)];
    assert NatToString(year / 100) == NatToString(year / 1000) + [DigitChar(year / 100 % 10)];
  }

  /** As written, the month field of the timestamp reads back as
      `getMonth()`: January shows as `00`, December as `11`. */
  lemma TimestampMonthField(d: DateParts)
    requires ValidDate(d) && 1000 <= d.year <= 9999
    ensures Parse(Timestamp(d)).Some?
    ensures Parse(Timestamp(d)).value.month == d.month0
    ensures d.month0 == 0 ==> Timestamp(d)[5..7] == "00"
  {
    LayoutRoundTrip(d.year, d.month0, d.day, d.hours, d.minutes, d.seconds, d.millis);
  }

  /** The corrected timestamp reads back as the calendar date and time:
      every field is the `Date`'s, with the month counted from 1. */
  lemma CalendarTimestampRoundTrip(d: DateParts)
    requires ValidDate(d) && 1000 <= d.year <= 9999
    ensures Parse(CalendarTimestamp(d))
         == Some(Fields(d.year, d.month0 + 1, d.day, d.hours, d.minutes, d.seconds, d.millis))
    ensures 1 <= Parse(CalendarTimestamp(d)).value.month <= 12
  {
    LayoutRoundTrip(d.year, d.month0 + 1, d.day, d.hours, d.minutes, d.seconds, d.millis);
  }

  /** `String.prototype.toUpperCase` on ASCII letters; other characters are
      kept. */
  function UpperChar(c: char): char {
    if 'a' <= c <= 'z' then (c as int - 'a' as int + 'A' as int) as char else c
  }

  function Upper(s: string): (r: string)
    ensures |r| == |s|
    ensures forall i :: 0 <= i < |s| ==> r[i] == UpperChar(s[i])
  {
    seq(|s|, i requires 0 <= i < |s| => UpperChar(s[i]))
  }

  /** Upper-casing leaves no lower-case letter, changes nothing else, and
      doing it twice is doing it once. */
  lemma UpperNormalizes(s: string)
    ensures forall i :: 0 <= i < |s| ==> !('a' <= Upper(s)[i] <= 'z')
    ensures forall i :: 0 <= i < |s| && !('a' <= s[i] <= 'z') ==> Upper(s)[i] == s[i]
    ensures Upper(Upper(s)) == Upper(s)
  {
  }

  /** The metadata object: how many own keys it has, and its JSON text. */
  datatype Meta = Meta(keyCount: nat, json: string)

  /** The fixed head of a log line: the timestamp, then the application
      name and the upper-cased level, each in brackets and followed by a
      space. */
  function Prefix(timestamp: string, application: string, level: string): (head: string)
    ensures |head| == |timestamp| + |application| + |level| + 7
    ensures head[..|timestamp|] == timestamp
    ensures var a := |timestamp| + 2;
      var l := a + |application| + 3;
      && head[|timestamp|..a] == " ["
      && head[a..a + |application|] == application
      && head[a + |application|..l] == "] ["
      && head[l..l + |level|] == Upper(level)
      && head[l + |level|..] == "] "
  {
    timestamp + " [" + application + "] [" + Upper(level) + "] "
  }

  /** `formatter(options)`: the head, the message (empty when absent), and
      the metadata's JSON on an indented second line when it has at least
      one key. */
  function Formatter(timestamp: string, application: string, level: string,
                     message: Option<string>, meta: Option<Meta>): (line: string)
    ensures var h := Prefix(timestamp, application, level);
      && |line| >= |h| + |message.GetOr("")|
      && line[..|h|] == h
      && line[|h|..|h| + |message.GetOr("")|] == message.GetOr("")
    ensures meta.None? || meta.value.keyCount == 0 ==>
      |line| == |timestamp| + |application| + |level| + 7 + |message.GetOr("")|
    ensures meta.Some? && meta.value.keyCount > 0 ==>
      |line| == |timestamp| + |application| + |level| + 7 + |message.GetOr("")| + 2 + |meta.value.json|
  {
    Prefix(timestamp, application, level) + message.GetOr("")
    + (if meta.Some? && meta.value.keyCount > 0 then "\n\t" + meta.value.json else "")
  }

  predicate NoNewline(s: string) {
    forall i :: 0 <= i < |s| ==> s[i] != '\n'
  }

  /** The line without metadata is one line when its parts are; metadata
      with keys adds exactly a newline, a tab and its JSON, and metadata
      without keys adds nothing. */
  lemma FormatterLines(timestamp: string, application: string, level: string,
                       message: Option<string>, meta: Option<Meta>)
    ensures NoNewline(timestamp) && NoNewline(application) && NoNewline(level)
            && NoNewline(message.GetOr(""))
        ==> NoNewline(Formatter(timestamp, application, level, message, None))
    ensures meta.Some? && meta.value.keyCount > 0
        ==> (Formatter(timestamp, application, level, message, meta)
             == Formatter(timestamp, application, level, message, None) + "\n\t" + meta.value.json)
    ensures meta.None? || meta.value.keyCount == 0
        ==> (Formatter(timestamp, application, level, message, meta)
             == Formatter(timestamp, application, level, message, None))
  {
    var head := Prefix(timestamp, application, level);
    assert Formatter(timestamp, application, level, message, None) == head + message.GetOr("") + "";
  }
}

=== FILE: path_sanitizer.dfy ===
/** The path sanitiser of src/archiver.js (`Entries.path`): an untrusted entry
    name is split on either separator, joined and normalised the way Node's POSIX
    `path` module does it, stripped of a leading run of `../` or `..\`, and
    joined under the destination directory.

    Strings are handled character by character where the source works on
    strings; the normalisation itself is a left fold over the segments, which
    is how Node's `normalizeString` behaves. */
module PathSanitizer {

  type Segment = string

  /** Which characters split a string: `/` alone, as in Node's POSIX `path`
      functions, or `/` and `\`, as in the entry-name regex `/\/|\\/`. */
  datatype Separators = SlashOnly | SlashOrBackslash

  predicate Separates(seps: Separators, c: char) {
    c == '/' || (seps == SlashOrBackslash && c == '\\')
  }

  predicate IsSeparator(c: char) {
    Separates(SlashOrBackslash, c)
  }

  predicate NoSeparator(s: string) {
    forall i :: 0 <= i < |s| ==> !IsSeparator(s[i])
  }

  predicate NoSlash(s: string) {
    forall i :: 0 <= i < |s| ==> s[i] != '/'
  }

  /** `s.split(sep)`: the pieces between separators, empty pieces included. */
  function Split(s: string, seps: Separators): (pieces: seq<string>)
    ensures 1 <= |pieces|
    decreases |s|
  {
    if |s| == 0 then [""]
    else
      var rest := Split(s[1..], seps);
      if Separates(seps, s[0]) then [""] + rest
      else [[s[0]] + rest[0]] + rest[1..]
  }

  /** `segments.join('/')`. */
  function JoinSlash(segments: seq<Segment>): string
    decreases |segments|
  {
    if |segments| == 0 then ""
    else if |segments| == 1 then segments[0]
    else segments[0] + "/" + JoinSlash(segments[1..])
  }

  /** The non-empty arguments of `path.join`, which it skips. */
  function NonEmpty(args: seq<string>): (r: seq<string>)
    ensures forall i :: 0 <= i < |r| ==> r[i] != "" && r[i] in args
    decreases |args|
  {
    if |args| == 0 then []
    else if args[0] == "" then NonEmpty(args[1..])
    else [args[0]] + NonEmpty(args[1..])
  }

  /** A parsed POSIX path: a leading slash, the segments, a trailing slash. */
  datatype Path = Path(absolute: bool, segments: seq<Segment>, trailing: bool)

  /** One step of Node's `normalizeString`: empty and `.` segments vanish, `..`
      cancels the last segment unless that is itself `..`, and a `..` that has
      nothing to cancel is kept only where climbing above the root is allowed
      (relative paths). */
  function Step(acc: seq<Segment>, seg: Segment, allowAboveRoot: bool): seq<Segment> {
    if seg == "" || seg == "." then acc
    else if seg == ".." then
      if |acc| > 0 && acc[|acc| - 1] != ".." then acc[..|acc| - 1]
      else if allowAboveRoot then acc + [".."]
      else acc
    else acc + [seg]
  }

  function NormalizeFrom(acc: seq<Segment>, segs: seq<Segment>, allowAboveRoot: bool): seq<Segment>
    decreases |segs|
  {
    if |segs| == 0 then acc
    else NormalizeFrom(Step(acc, segs[0], allowAboveRoot), segs[1..], allowAboveRoot)
  }

  function NormalizeSegments(segs: seq<Segment>, allowAboveRoot: bool): seq<Segment> {
    NormalizeFrom([], segs, allowAboveRoot)
  }

  /** `path.normalize(s)` before rendering. */
  function Parse(s: string): Path {
    var absolute := |s| > 0 && s[0] == '/';
    Path(absolute, NormalizeSegments(Split(s, SlashOnly), !absolute), |s| > 0 && s[|s| - 1] == '/')
  }

  /** The string `path.normalize` returns for a parsed path. */
  function Render(p: Path): string {
    if |p.segments| == 0 then
      (if p.absolute then "/" else if p.trailing then "./" else ".")
    else
      (if p.absolute then "/" else "") + JoinSlash(p.segments) + (if p.trailing then "/" else "")
  }

  /** `path.normalize(s)`. */
  function NormalizeString(s: string): string {
    Render(Parse(s))
  }

  /** `path.join(...args)`: the non-empty arguments joined by `/`, normalised. */
  function PathJoin(args: seq<string>): string {
    NormalizeString(JoinSlash(NonEmpty(args)))
  }

  /** `s.replace(/^(\.\.[\/\\])+/, '')`: removes the longest leading run of
      `../` and `..\`. */
  function StripLeadingParents(s: string): (r: string)
    ensures !(|r| >= 3 && r[0] == '.' && r[1] == '.' && IsSeparator(r[2]))
    decreases |s|
  {
    if |s| >= 3 && s[0] == '.' && s[1] == '.' && IsSeparator(s[2]) then StripLeadingParents(s[3..])
    else s
  }

  /** The relative part of `Entries.path`: split on either separator, joined,
      normalised and stripped of its leading parent escapes. */
  function RelativePart(name: string): (r: string)
    ensures !(|r| >= 3 && r[0] == '.' && r[1] == '.' && IsSeparator(r[2]))
  {
    var joined := PathJoin(Split(name, SlashOrBackslash));
    StripLeadingParents(NormalizeString(joined))
  }

  /** `Entries.path(name, destination)` on the POSIX `path` module. */
  function EntryPath(name: string, destination: string): string {
    PathJoin([destination, RelativePart(name)])
  }

  // ---------------------------------------------------------------------------
  // Splitting and joining

  lemma {:induction false} SplitWithoutSeparator(a: string, seps: Separators)
    requires forall i :: 0 <= i < |a| ==> !Separates(seps, a[i])
    ensures Split(a, seps) == [a]
    decreases |a|
  {
    if |a| > 0 {
      SplitWithoutSeparator(a[1..], seps);
      assert [a[0]] + a[1..] == a;
    }
  }

  lemma {:induction false} SplitConcat(a: string, sep: char, b: string, seps: Separators)
    requires Separates(seps, sep)
    ensures Split(a + [sep] + b, seps) == Split(a, seps) + Split(b, seps)
    decreases |a|
  {
    if |a| == 0 {
      assert (a + [sep] + b)[1..] == b;
    } else {
      SplitConcat(a[1..], sep, b, seps);
      SplitConcatStep(a, sep, b, seps);
    }
  }

  lemma SplitConcatStep(a: string, sep: char, b: string, seps: Separators)
    requires 1 <= |a|
    requires Split(a[1..] + [sep] + b, seps) == Split(a[1..], seps) + Split(b, seps)
    ensures Split(a + [sep] + b, seps) == Split(a, seps) + Split(b, seps)
  {
    var s := a + [sep] + b;
    assert s[0] == a[0] && s[1..] == a[1..] + [sep] + b;
    var left := Split(a[1..], seps);
    var right := Split(b, seps);
    SplitUnfold(s, seps);
    SplitUnfold(a, seps);
    if Separates(seps, a[0]) {
      ConsConcat("", left, right);
    } else {
      ConsTailConcat([a[0]] + left[0], left, right);
    }
  }

  /** One step of `Split` on a non-empty string. */
  lemma SplitUnfold(s: string, seps: Separators)
    requires 1 <= |s|
    ensures Separates(seps, s[0]) ==> Split(s, seps) == [""] + Split(s[1..], seps)
    ensures !Separates(seps, s[0]) ==>
      Split(s, seps) == [[s[0]] + Split(s[1..], seps)[0]] + Split(s[1..], seps)[1..]
  {
  }

  lemma ConsConcat<T>(x: T, left: seq<T>, right: seq<T>)
    ensures [x] + (left + right) == ([x] + left) + right
  {
  }

  lemma ConsTailConcat<T>(x: T, left: seq<T>, right: seq<T>)
    requires 1 <= |left|
    ensures (left + right)[0] == left[0]
    ensures [x] + (left + right)[1..] == ([x] + left[1..]) + right
  {
    assert (left + right)[1..] == left[1..] + right;
  }

  /** Splitting a `/`-joined list of slash-free segments gives the list back. */
  lemma {:induction false} SplitJoinSlash(segs: seq<Segment>)
    requires 1 <= |segs|
    requires forall i :: 0 <= i < |segs| ==> NoSlash(segs[i])
    ensures Split(JoinSlash(segs), SlashOnly) == segs
    decreases |segs|
  {
    if |segs| == 1 {
      SplitWithoutSeparator(segs[0], SlashOnly);
    } else {
      SplitJoinSlash(segs[1..]);
      SplitWithoutSeparator(segs[0], SlashOnly);
      SplitConcat(segs[0], '/', JoinSlash(segs[1..]), SlashOnly);
      assert segs[0] + "/" + JoinSlash(segs[1..]) == segs[0] + ['/'] + JoinSlash(segs[1..]);
      assert [segs[0]] + segs[1..] == segs;
    }
  }

  /** Splitting a name on either separator and joining the pieces with `/`
      gives the name with every backslash turned into a slash. */
  lemma {:induction false} SplitNameJoin(name: string)
    ensures JoinSlash(Split(name, SlashOrBackslash)) == ToSlashes(name)
    decreases |name|
  {
    if |name| > 0 {
      SplitNameJoin(name[1..]);
      var rest := Split(name[1..], SlashOrBackslash);
      if !IsSeparator(name[0]) {
        if |rest| > 1 {
          assert [rest[0]] + rest[1..] == rest;
        }
      }
    }
  }

  function ToSlashes(s: string): (r: string)
    ensures |r| == |s|
    ensures forall i :: 0 <= i < |s| ==> r[i] == (if IsSeparator(s[i]) then '/' else s[i])
    decreases |s|
  {
    if |s| == 0 then "" else [if IsSeparator(s[0]) then '/' else s[0]] + ToSlashes(s[1..])
  }

  // ---------------------------------------------------------------------------
  // Normalisation

  lemma {:induction false} NormalizeConcat(acc: seq<Segment>, a: seq<Segment>, b: seq<Segment>, allow: bool)
    ensures NormalizeFrom(acc, a + b, allow) == NormalizeFrom(NormalizeFrom(acc, a, allow), b, allow)
    decreases |a|
  {
    if |a| > 0 {
      assert (a + b)[1..] == a[1..] + b;
      NormalizeConcat(Step(acc, a[0], allow), a[1..], b, allow);
    } else {
      assert a + b == b;
    }
  }

  lemma {:induction false} NormalizeIgnoresEmpty(acc: seq<Segment>, args: seq<string>, allow: bool)
    ensures NormalizeFrom(acc, NonEmpty(args), allow) == NormalizeFrom(acc, args, allow)
    decreases |args|
  {
    if |args| > 0 {
      NormalizeIgnoresEmpty(Step(acc, args[0], allow), args[1..], allow);
      NormalizeIgnoresEmpty(acc, args[1..], allow);
    }
  }

  /** A segment that survives normalisation and is not a parent reference. */
  predicate Plain(seg: Segment) {
    seg != "" && seg != "." && seg != ".." && NoSlash(seg)
  }

  predicate AllPlain(segs: seq<Segment>) {
    forall i :: 0 <= i < |segs| ==> Plain(segs[i])
  }

  /** The shape of a normalised segment list: every segment is `..` or plain,
      the `..` segments form a prefix, and none at all where climbing above the
      root is not allowed. */
  predicate IsNormal(segs: seq<Segment>, allowAboveRoot: bool) {
    && (forall i :: 0 <= i < |segs| ==> segs[i] == ".." || Plain(segs[i]))
    && (forall i, j :: 0 <= i < j < |segs| && segs[j] == ".." ==> segs[i] == "..")
    && (!allowAboveRoot ==> forall i :: 0 <= i < |segs| ==> segs[i] != "..")
  }

  lemma NormalSegmentsAreSlashFree(segs: seq<Segment>, allow: bool)
    requires IsNormal(segs, allow)
    ensures forall i :: 0 <= i < |segs| ==> segs[i] != "" && NoSlash(segs[i])
  {
    forall i | 0 <= i < |segs|
      ensures segs[i] != "" && NoSlash(segs[i])
    {
      if segs[i] == ".." {
        assert NoSlash("..");
      }
    }
  }

  lemma NormalizeSingle(acc: seq<Segment>, seg: Segment, allow: bool)
    ensures NormalizeFrom(acc, [seg], allow) == Step(acc, seg, allow)
  {
    assert [seg][1..] == [];
  }

  /** Plain segments are appended unchanged, whatever comes before them. */
  lemma {:induction false} NormalizePlain(acc: seq<Segment>, b: seq<Segment>, allow: bool)
    requires AllPlain(b)
    ensures NormalizeFrom(acc, b, allow) == acc + b
    decreases |b|
  {
    if |b| > 0 {
      NormalizePlain(acc + [b[0]], b[1..], allow);
      assert acc + [b[0]] + b[1..] == acc + b;
    }
  }

  /** Normalisation of slash-free segments yields a normal list. */
  lemma {:induction false} NormalizeIsNormal(acc: seq<Segment>, segs: seq<Segment>, allow: bool)
    requires IsNormal(acc, allow)
    requires forall i :: 0 <= i < |segs| ==> NoSlash(segs[i])
    ensures IsNormal(NormalizeFrom(acc, segs, allow), allow)
    decreases |segs|
  {
    if |segs| > 0 {
      var next := Step(acc, segs[0], allow);
      if segs[0] == ".." && !(|acc| > 0 && acc[|acc| - 1] != "..") && allow {
        assert forall i :: 0 <= i < |acc| ==> acc[i] == "..";
      }
      assert IsNormal(next, allow);
      NormalizeIsNormal(next, segs[1..], allow);
    }
  }

  /** Normalising a list that is already normal changes nothing. */
  lemma {:induction false} NormalizeNormal(acc: seq<Segment>, segs: seq<Segment>, allow: bool)
    requires IsNormal(acc + segs, allow)
    ensures NormalizeFrom(acc, segs, allow) == acc + segs
    decreases |segs|
  {
    if |segs| > 0 {
      assert (acc + segs)[|acc|] == segs[0];
      if segs[0] == ".." {
        assert forall i :: 0 <= i < |acc| ==> acc[i] == (acc + segs)[i] == "..";
      }
      assert Step(acc, segs[0], allow) == acc + [segs[0]];
      assert acc + [segs[0]] + segs[1..] == acc + segs;
      NormalizeNormal(acc + [segs[0]], segs[1..], allow);
    }
  }

  /** Only segments of the input and `..` reach the output. */
  lemma {:induction false} NormalizeKeepsSeparatorFree(acc: seq<Segment>, segs: seq<Segment>, allow: bool)
    requires forall i :: 0 <= i < |acc| ==> NoSeparator(acc[i])
    requires forall i :: 0 <= i < |segs| ==> NoSeparator(segs[i])
    ensures forall i :: 0 <= i < |NormalizeFrom(acc, segs, allow)| ==> NoSeparator(NormalizeFrom(acc, segs, allow)[i])
    decreases |segs|
  {
    if |segs| > 0 {
      NormalizeKeepsSeparatorFree(Step(acc, segs[0], allow), segs[1..], allow);
    }
  }

  lemma {:induction false} SplitPiecesHaveNoSeparator(s: string, seps: Separators)
    ensures forall i, k :: 0 <= i < |Split(s, seps)| && 0 <= k < |Split(s, seps)[i]| ==> !Separates(seps, Split(s, seps)[i][k])
    decreases |s|
  {
    if |s| > 0 {
      SplitPiecesHaveNoSeparator(s[1..], seps);
    }
  }

  lemma {:induction false} JoinSlashEnds(segs: seq<Segment>)
    requires 1 <= |segs|
    requires forall i :: 0 <= i < |segs| ==> segs[i] != ""
    ensures |JoinSlash(segs)| >= 1
    ensures JoinSlash(segs)[0] == segs[0][0]
    ensures JoinSlash(segs)[|JoinSlash(segs)| - 1] == segs[|segs| - 1][|segs[|segs| - 1]| - 1]
    decreases |segs|
  {
    if |segs| > 1 {
      JoinSlashEnds(segs[1..]);
    }
  }

  // ---------------------------------------------------------------------------
  // The pipeline of `Entries.path`, stage by stage

  /** The rendering of a relative path without a trailing slash. */
  function RenderRelative(segs: seq<Segment>): (r: string)
    ensures |segs| == 0 ==> r == "."
    ensures |segs| > 0 ==> r == JoinSlash(segs)
  {
    Render(Path(false, segs, false))
  }

  /** `path.normalize` of a `/`-joined list of non-empty slash-free segments
      that does not start with `/`. */
  lemma ParseJoined(segs: seq<Segment>, allow: bool)
    requires 1 <= |segs|
    requires forall i :: 0 <= i < |segs| ==> segs[i] != "" && NoSlash(segs[i])
    ensures Parse(JoinSlash(segs)) == Path(false, NormalizeSegments(segs, true), false)
  {
    var s := JoinSlash(segs);
    JoinSlashEnds(segs);
    SplitJoinSlash(segs);
    assert s[0] != '/';
    assert s[|s| - 1] != '/';
  }

  /** A normal relative segment list survives `path.normalize` of its rendering. */
  lemma ReparseRelative(segs: seq<Segment>)
    requires IsNormal(segs, true)
    ensures Parse(RenderRelative(segs)) == Path(false, segs, false)
  {
    if |segs| == 0 {
      SplitWithoutSeparator(".", SlashOnly);
      NormalizeSingle([], ".", true);
    } else {
      ParseJoined(segs, true);
      NormalizeNormal([], segs, true);
      assert [] + segs == segs;
    }
  }

  /** The segments the entry name normalises to (`path.join` of its pieces). */
  function NameSegments(name: string): seq<Segment> {
    NormalizeSegments(Split(name, SlashOrBackslash), true)
  }

  lemma NameSegmentsShape(name: string)
    ensures IsNormal(NameSegments(name), true)
    ensures forall i :: 0 <= i < |NameSegments(name)| ==> NoSeparator(NameSegments(name)[i])
  {
    var pieces := Split(name, SlashOrBackslash);
    SplitPiecesHaveNoSeparator(name, SlashOrBackslash);
    NormalizeIsNormal([], pieces, true);
    NormalizeKeepsSeparatorFree([], pieces, true);
  }

  /** `path.join(...pieces)` of the name's pieces renders the normalised name. */
  lemma JoinedName(name: string)
    ensures PathJoin(Split(name, SlashOrBackslash)) == RenderRelative(NameSegments(name))
  {
    var pieces := Split(name, SlashOrBackslash);
    var present := NonEmpty(pieces);
    SplitPiecesHaveNoSeparator(name, SlashOrBackslash);
    NormalizeIgnoresEmpty([], pieces, true);
    assert NormalizeSegments(present, true) == NameSegments(name);
    if |present| == 0 {
      SplitWithoutSeparator("", SlashOnly);
      NormalizeSingle([], "", true);
    } else {
      assert forall i :: 0 <= i < |present| ==> present[i] != "" && NoSlash(present[i]);
      ParseJoined(present, true);
    }
  }

  /** `path.normalize(path.join(...pieces))`: the second normalisation is idempotent. */
  lemma NormalizedName(name: string)
    ensures NormalizeString(PathJoin(Split(name, SlashOrBackslash))) == RenderRelative(NameSegments(name))
  {
    JoinedName(name);
    NameSegmentsShape(name);
    ReparseRelative(NameSegments(name));
  }

  /** The segment-level counterpart of the regex: leading `..` segments are
      dropped while another segment follows them, since only then does a
      separator follow the `..` in the rendered string. */
  function StripParentSegments(segs: seq<Segment>): seq<Segment>
    decreases |segs|
  {
    if |segs| >= 2 && segs[0] == ".." then StripParentSegments(segs[1..]) else segs
  }

  lemma JoinSlashPrefix(segs: seq<Segment>)
    requires 1 <= |segs|
    ensures |JoinSlash(segs)| >= |segs[0]|
    ensures JoinSlash(segs)[..|segs[0]|] == segs[0]
    ensures |segs| >= 2 ==> |JoinSlash(segs)| > |segs[0]| && JoinSlash(segs)[|segs[0]|] == '/'
  {
    if |segs| >= 2 {
      assert JoinSlash(segs) == segs[0] + "/" + JoinSlash(segs[1..]);
    }
  }

  /** The regex finds nothing to strip when the first segment is not a `..`
      followed by another segment. */
  lemma NothingToStrip(segs: seq<Segment>)
    requires 1 <= |segs|
    requires segs[0] != "" && NoSeparator(segs[0])
    requires !(|segs| >= 2 && segs[0] == "..")
    ensures StripLeadingParents(JoinSlash(segs)) == JoinSlash(segs)
  {
    var s := JoinSlash(segs);
    var first := segs[0];
    JoinSlashPrefix(segs);
    if |first| >= 3 {
      assert s[2] == first[2];
      assert !IsSeparator(s[2]);
    } else if |first| == 2 {
      if |segs| >= 2 {
        assert first != "..";
        assert first == [first[0], first[1]];
        assert s[0] == first[0] && s[1] == first[1];
        assert !(s[0] == '.' && s[1] == '.');
      } else {
        assert |s| == 2;
      }
    } else if |segs| >= 2 {
      assert s[1] == '/';
    } else {
      assert |s| == 1;
    }
  }

  /** A leading `..` followed by another segment renders as `../`, which the
      regex removes. */
  lemma StripOneParent(tail: seq<Segment>)
    requires 1 <= |tail|
    ensures StripLeadingParents(RenderRelative([".."] + tail)) == StripLeadingParents(RenderRelative(tail))
  {
    var segs := [".."] + tail;
    var rest := JoinSlash(tail);
    assert segs[1..] == tail;
    assert JoinSlash(segs) == ".." + "/" + rest;
    var s := ".." + "/" + rest;
    assert s[3..] == rest;
  }

  /** The regex on the rendered string agrees with the segment-level strip. */
  lemma {:induction false} StripBridge(segs: seq<Segment>)
    requires forall i :: 0 <= i < |segs| ==> segs[i] != "" && NoSeparator(segs[i])
    ensures StripLeadingParents(RenderRelative(segs)) == RenderRelative(StripParentSegments(segs))
    decreases |segs|
  {
    if |segs| >= 2 && segs[0] == ".." {
      var tail := segs[1..];
      assert segs == [".."] + tail;
      StripOneParent(tail);
      StripBridge(tail);
    } else if |segs| >= 1 {
      NothingToStrip(segs);
      assert StripParentSegments(segs) == segs;
    } else {
      assert StripLeadingParents(".") == ".";
    }
  }

  /** A non-empty name made only of `..` segments after normalisation. */
  predicate IsBareParentRun(segs: seq<Segment>) {
    |segs| >= 1 && forall i :: 0 <= i < |segs| ==> segs[i] == ".."
  }

  /** Stripping keeps a suffix of a normal list; it leaves a `..` behind only
      when the whole list was a bare run of `..`. */
  lemma {:induction false} StripParentSegmentsShape(segs: seq<Segment>)
    requires IsNormal(segs, true)
    ensures IsNormal(StripParentSegments(segs), true)
    ensures !IsBareParentRun(segs) ==> AllPlain(StripParentSegments(segs))
    ensures IsBareParentRun(segs) ==> StripParentSegments(segs) == [".."]
    decreases |segs|
  {
    if |segs| >= 2 && segs[0] == ".." {
      var tail := segs[1..];
      assert StripParentSegments(segs) == StripParentSegments(tail);
      NormalTail(segs);
      BareRunTail(segs);
      StripParentSegmentsShape(tail);
    } else {
      assert StripParentSegments(segs) == segs;
      if |segs| >= 1 && segs[0] != ".." {
        NormalWithoutLeadingParent(segs);
      } else if |segs| == 1 {
        assert segs == [".."];
      }
    }
  }

  lemma NormalTail(segs: seq<Segment>)
    requires 1 <= |segs|
    requires IsNormal(segs, true)
    ensures IsNormal(segs[1..], true)
  {
    var tail := segs[1..];
    assert forall i :: 0 <= i < |tail| ==> tail[i] == segs[i + 1];
  }

  lemma BareRunTail(segs: seq<Segment>)
    requires 2 <= |segs| && segs[0] == ".."
    ensures IsBareParentRun(segs) <==> IsBareParentRun(segs[1..])
  {
    var tail := segs[1..];
    assert forall i :: 1 <= i < |segs| ==> segs[i] == tail[i - 1];
  }

  lemma NormalWithoutLeadingParent(segs: seq<Segment>)
    requires 1 <= |segs| && segs[0] != ".."
    requires IsNormal(segs, true)
    ensures AllPlain(segs)
  {
    assert forall j :: 0 <= j < |segs| ==> segs[j] != "..";
  }

  /** What the relative part of `Entries.path` keeps of the normalised name. */
  function KeptSegments(name: string): seq<Segment> {
    StripParentSegments(NameSegments(name))
  }

  lemma KeptSegmentsShape(name: string)
    ensures IsNormal(KeptSegments(name), true)
    ensures !IsBareParentRun(NameSegments(name)) ==> AllPlain(KeptSegments(name))
    ensures IsBareParentRun(NameSegments(name)) ==> KeptSegments(name) == [".."]
  {
    NameSegmentsShape(name);
    StripParentSegmentsShape(NameSegments(name));
  }

  lemma RelativePartShape(name: string)
    ensures RelativePart(name) == RenderRelative(KeptSegments(name))
  {
    NormalizedName(name);
    NameSegmentsShape(name);
    StripBridge(NameSegments(name));
  }

  /** Whether `path.join` and `path.normalize` treat the destination as absolute. */
  predicate IsAbsolute(destination: string) {
    |destination| > 0 && destination[0] == '/'
  }

  /** The destination's own segments after normalisation. */
  function DestinationSegments(destination: string): seq<Segment> {
    NormalizeSegments(Split(destination, SlashOnly), !IsAbsolute(destination))
  }

  lemma NonEmptyPair(a: string, b: string)
    requires b != ""
    ensures NonEmpty([a, b]) == if a == "" then [b] else [a, b]
  {
    assert [a, b][1..] == [b];
    assert [b][1..] == [];
    assert NonEmpty([b]) == [b];
  }

  /** A rendered relative path splits back into its segments, `.` standing
      for none. */
  lemma RenderRelativeSplits(kept: seq<Segment>)
    requires IsNormal(kept, true)
    ensures var rel := RenderRelative(kept);
      && |rel| > 0 && rel[0] != '/' && rel[|rel| - 1] != '/'
      && Split(rel, SlashOnly) == (if |kept| == 0 then ["."] else kept)
  {
    NormalSegmentsAreSlashFree(kept, true);
    if |kept| > 0 {
      JoinSlashEnds(kept);
      SplitJoinSlash(kept);
    } else {
      SplitWithoutSeparator(".", SlashOnly);
    }
  }

  /** `path.join('', relative)` of a rendered normal relative path. */
  lemma JoinUnderEmptyDestination(kept: seq<Segment>)
    requires IsNormal(kept, true)
    ensures PathJoin(["", RenderRelative(kept)]) == Render(Path(false, NormalizeFrom(DestinationSegments(""), kept, true), false))
  {
    var rel := RenderRelative(kept);
    RenderRelativeSplits(kept);
    NonEmptyPair("", rel);
    assert JoinSlash([rel]) == rel;
    ReparseRelative(kept);
    NormalizeNormal([], kept, true);
    assert [] + kept == kept;
    SplitWithoutSeparator("", SlashOnly);
    NormalizeSingle([], "", true);
    assert DestinationSegments("") == [];
  }

  /** `path.join(destination, relative)` when the destination is not empty. */
  lemma JoinUnderDestination(destination: string, rel: string)
    requires destination != ""
    requires |rel| > 0 && rel[|rel| - 1] != '/'
    ensures PathJoin([destination, rel])
         == Render(Path(IsAbsolute(destination),
                        NormalizeFrom(DestinationSegments(destination), Split(rel, SlashOnly), !IsAbsolute(destination)),
                        false))
  {
    var abs := IsAbsolute(destination);
    NonEmptyPair(destination, rel);
    var joined := destination + "/" + rel;
    assert JoinSlash([destination, rel]) == joined;
    assert joined == destination + ['/'] + rel;
    SplitConcat(destination, '/', rel, SlashOnly);
    NormalizeConcat([], Split(destination, SlashOnly), Split(rel, SlashOnly), !abs);
    assert joined[|joined| - 1] == rel[|rel| - 1];
    assert joined[0] == destination[0];
  }

  /** `path.join(destination, relative)` of a rendered normal relative path. */
  lemma JoinRelative(destination: string, kept: seq<Segment>)
    requires IsNormal(kept, true)
    ensures PathJoin([destination, RenderRelative(kept)])
         == Render(Path(IsAbsolute(destination),
                        NormalizeFrom(DestinationSegments(destination), kept, !IsAbsolute(destination)),
                        false))
  {
    if destination == "" {
      JoinUnderEmptyDestination(kept);
    } else {
      var rel := RenderRelative(kept);
      RenderRelativeSplits(kept);
      JoinUnderDestination(destination, rel);
      if |kept| == 0 {
        NormalizeSingle(DestinationSegments(destination), ".", !IsAbsolute(destination));
      }
    }
  }

  /** `Entries.path` appends what is kept of the name to the normalised
      destination, normalising once more. */
  lemma EntryPathShape(name: string, destination: string)
    ensures EntryPath(name, destination)
         == Render(Path(IsAbsolute(destination),
                        NormalizeFrom(DestinationSegments(destination), KeptSegments(name), !IsAbsolute(destination)),
                        false))
  {
    RelativePartShape(name);
    KeptSegmentsShape(name);
    JoinRelative(destination, KeptSegments(name));
  }

  /** Containment: unless the name normalises to a bare run of `..`, the
      sanitised path is the normalised destination followed by plain segments
      only, so it lies inside the destination directory. */
  lemma EntryPathContained(name: string, destination: string)
    requires !IsBareParentRun(NameSegments(name))
    ensures AllPlain(KeptSegments(name))
    ensures EntryPath(name, destination)
         == Render(Path(IsAbsolute(destination), DestinationSegments(destination) + KeptSegments(name), false))
  {
    EntryPathShape(name, destination);
    KeptSegmentsShape(name);
    NormalizePlain(DestinationSegments(destination), KeptSegments(name), !IsAbsolute(destination));
  }

  /** The case the regex misses: a name that normalises to a bare run of `..`
      keeps one `..`, and the sanitised path climbs one level above the
      destination. */
  lemma EntryPathBareParentRun(name: string, destination: string)
    requires IsBareParentRun(NameSegments(name))
    ensures RelativePart(name) == ".."
    ensures EntryPath(name, destination)
         == Render(Path(IsAbsolute(destination),
                        Step(DestinationSegments(destination), "..", !IsAbsolute(destination)),
                        false))
  {
    EntryPathShape(name, destination);
    KeptSegmentsShape(name);
    RelativePartShape(name);
  }

  /** The segments of a destination `/<a>/<b>`. */
  lemma TwoLevelDestination(destination: string, a: string, b: string)
    requires a != "" && a != "." && a != ".." && NoSlash(a)
    requires b != "" && b != "." && b != ".." && NoSlash(b)
    requires destination == "/" + a + "/" + b
    ensures IsAbsolute(destination)
    ensures DestinationSegments(destination) == [a, b]
  {
    SplitWithoutSeparator("", SlashOnly);
    SplitWithoutSeparator(a, SlashOnly);
    SplitWithoutSeparator(b, SlashOnly);
    var inner := a + "/" + b;
    assert inner == a + ['/'] + b;
    SplitConcat(a, '/', b, SlashOnly);
    assert destination == "" + ['/'] + inner;
    SplitConcat("", '/', inner, SlashOnly);
    var pieces := ["", a, b];
    assert Split(destination, SlashOnly) == pieces;
    NormalizePlain(Step([], "", false), [a, b], false);
    assert pieces == [""] + [a, b];
    NormalizeConcat([], [""], [a, b], false);
    NormalizeSingle([], "", false);
  }

  /** A name of a single `..` is written one level above the destination
      `/<a>/<b>`: into `/<a>`. */
  lemma BareParentEscapes(name: string, destination: string, a: string, b: string)
    requires a != "" && a != "." && a != ".." && NoSlash(a)
    requires b != "" && b != "." && b != ".." && NoSlash(b)
    requires destination == "/" + a + "/" + b
    requires name == ".."
    ensures EntryPath(name, destination) == "/" + a
  {
    SingleParentName(name);
    EntryPathBareParentRun(name, destination);
    TwoLevelDestination(destination, a, b);
    assert Step([a, b], "..", false) == [a];
    assert Render(Path(true, [a], false)) == "/" + a;
  }

  lemma SingleParentName(name: string)
    requires name == ".."
    ensures IsBareParentRun(NameSegments(name))
  {
    SplitWithoutSeparator(name, SlashOrBackslash);
    NormalizeSingle([], name, true);
    assert NameSegments(name) == [".."];
  }
}

=== FILE: peers.dfy ===
/** `PeerConnector` of src/peers.js: peers offered by the caller are
    converted to `{host, port}`, all validated, then injected into the swarm's
    discovery as `peer` events on the connector's channel, each `host:port`
    once. A `drop` of an injected peer counts towards a single terminal error
    reported through a one-shot error callback. The IP format checks are
    parameters.

    The main model gives `oneShot` its own state and binds `_connect` to the
    connector, as the code evidently intends; the section at the end models
    the receiver bindings as written. */
module Peers {
  import opened Wrappers
  import Decimal

  /** A peer address; the port is an integer. */
  datatype Peer = Peer(host: string, port: int)

  /** `id(peer)`: `host:port`. */
  function Id(p: Peer): string {
    p.host + ":" + Decimal.IntToString(p.port)
  }

  /** The number of characters after the last colon. */
  function TrailingRun(s: string): nat
    decreases |s|
  {
    if |s| == 0 || s[|s| - 1] == ':' then 0 else 1 + TrailingRun(s[..|s| - 1])
  }

  lemma {:induction false} TrailingRunAfterColon(x: string, a: string)
    requires forall k :: 0 <= k < |a| ==> a[k] != ':'
    ensures TrailingRun(x + ":" + a) == |a|
    decreases |a|
  {
    var s := x + ":" + a;
    if |a| > 0 {
      assert s[..|s| - 1] == x + ":" + a[..|a| - 1];
      TrailingRunAfterColon(x, a[..|a| - 1]);
    }
  }

  /** Splitting at a colon that is followed by a colon-free tail is unique. */
  lemma LastColonSplit(x: string, a: string, y: string, b: string)
    requires forall k :: 0 <= k < |a| ==> a[k] != ':'
    requires forall k :: 0 <= k < |b| ==> b[k] != ':'
    requires x + ":" + a == y + ":" + b
    ensures x == y && a == b
  {
    var s := x + ":" + a;
    TrailingRunAfterColon(x, a);
    TrailingRunAfterColon(y, b);
    assert a == s[|s| - |a|..] == b;
    assert x == s[..|x|] == y;
  }

  /** Distinct peers have distinct ids, IPv6 hosts with colons included. */
  lemma IdInjective(p: Peer, q: Peer)
    requires Id(p) == Id(q)
    ensures p == q
  {
    LastColonSplit(p.host, Decimal.IntToString(p.port), q.host, Decimal.IntToString(q.port));
    Decimal.IntToStringInjective(p.port, q.port);
  }

  /** The IPv4/IPv6 textual format checks the connector consults. */
  datatype Formats = Formats(isV4: string -> bool, isV6: string -> bool)

  const InvalidAddress := "Invalid address:"
  const InvalidPort := "Invalid port:"

  /** `_validate(peer)`: the message of the error it throws, if any. The
      offending value is the `Error` constructor's second argument, which is
      not part of the message. */
  function Validate(f: Formats, p: Peer): (r: Option<string>)
    ensures r.None? <==> (f.isV4(p.host) || f.isV6(p.host)) && 1 <= p.port <= 65535
    ensures r == Some(InvalidAddress) <==> !f.isV4(p.host) && !f.isV6(p.host)
    ensures r == Some(InvalidPort) <==> (f.isV4(p.host) || f.isV6(p.host)) && !(1 <= p.port <= 65535)
  {
    if !f.isV4(p.host) && !f.isV6(p.host) then Some(InvalidAddress)
    else if p.port < 1 || p.port > 65535 then Some(InvalidPort)
    else None
  }

  /** The first validation error of the list, in list order. */
  function FirstInvalid(f: Formats, peers: seq<Peer>): (r: Option<string>)
    ensures r.None? <==> forall i :: 0 <= i < |peers| ==> Validate(f, peers[i]).None?
    ensures r.Some? ==> exists i :: 0 <= i < |peers| && Validate(f, peers[i]) == r
                                  && forall j :: 0 <= j < i ==> Validate(f, peers[j]).None?
    decreases |peers|
  {
    if |peers| == 0 then None
    else if Validate(f, peers[0]).Some? then Validate(f, peers[0])
    else
      var r := FirstInvalid(f, peers[1..]);
      assert forall i :: 1 <= i < |peers| ==> peers[i] == peers[1..][i - 1];
      if r.Some? then
        var i :| 0 <= i < |peers[1..]| && Validate(f, peers[1..][i]) == r
                 && forall j :: 0 <= j < i ==> Validate(f, peers[1..][j]).None?;
        assert Validate(f, peers[i + 1]) == r;
        r
      else r
  }

  /** An offered peer: its `TCP` property, if it has one. */
  datatype Offer = Offer(tcp: Option<Peer>)

  const MissingTcp := "Cannot read properties of undefined (reading 'address')"

  /** `peers.map(p => ({host: p.TCP.address, port: p.TCP.port}))`. */
  function Addresses(offers: seq<Offer>): (r: Result<seq<Peer>>)
    ensures r.Success? <==> forall i :: 0 <= i < |offers| ==> offers[i].tcp.Some?
    ensures r.Success? ==> |r.value| == |offers| && forall i :: 0 <= i < |offers| ==> r.value[i] == offers[i].tcp.value
    ensures r.Failure? ==> r.error == MissingTcp
    decreases |offers|
  {
    if |offers| == 0 then Success([])
    else if offers[0].tcp.None? then Failure(MissingTcp)
    else
      var rest := Addresses(offers[1..]);
      assert forall i :: 1 <= i < |offers| ==> offers[i] == offers[1..][i - 1];
      if rest.Failure? then rest else Success([offers[0].tcp.value] + rest.value)
  }

  /** The state of a one-shot wrapper: its function not yet called, or
      replaced by a no-op. */
  datatype OneShot = Armed | Spent

  /** What the connector does observably: a `peer` event on the swarm's
      discovery, or a message handed to the error callback. */
  datatype Event = Announce(channel: string, peer: Peer, source: string) | Report(message: string)

  /** The connector: its channel, the ids injected so far, the drop counter,
      and the state of its one-shot error callback. */
  datatype Connector = Connector(channel: string, peers: set<string>, dropped: int, eb: OneShot)

  datatype Outcome = Outcome(connector: Connector, events: seq<Event>)

  /** A connector as constructed. */
  function NewConnector(channel: string): (c: Connector)
    ensures c.peers == {} && c.dropped == 0 && c.eb == Armed
  {
    Connector(channel, {}, 0, Armed)
  }

  /** `this.eb(message)` through `oneShot`: only the first call reaches the
      wrapped callback. */
  function Fire(c: Connector, message: string): (r: Outcome)
    ensures r.connector == c.(eb := Spent)
    ensures r.events == (if c.eb == Armed then [Report(message)] else [])
  {
    Outcome(c.(eb := Spent), if c.eb == Armed then [Report(message)] else [])
  }

  /** The ids of a list of peers. */
  function Ids(peers: seq<Peer>): (r: set<string>)
    ensures forall i :: 0 <= i < |peers| ==> Id(peers[i]) in r
    ensures forall x :: x in r ==> exists i :: 0 <= i < |peers| && Id(peers[i]) == x
    decreases |peers|
  {
    if |peers| == 0 then {}
    else
      var rest := Ids(peers[1..]);
      assert forall i :: 1 <= i < |peers| ==> peers[i] == peers[1..][i - 1];
      {Id(peers[0])} + rest
  }

  /** `_connect` over a list, each call bound to the connector. */
  function Inject(c: Connector, peers: seq<Peer>): (r: Outcome)
    ensures r.connector == c.(peers := c.peers + Ids(peers))
    decreases |peers|
  {
    if |peers| == 0 then Outcome(c, [])
    else
      var id := Id(peers[0]);
      var isNew := id !in c.peers;
      var rest := Inject(c.(peers := c.peers + {id}), peers[1..]);
      Outcome(rest.connector, (if isNew then [Announce(c.channel, peers[0], "dht")] else []) + rest.events)
  }

  /** The first step of an injection. */
  lemma InjectUnfold(c: Connector, peers: seq<Peer>)
    requires |peers| > 0
    ensures Inject(c, peers).events
         == (if Id(peers[0]) !in c.peers then [Announce(c.channel, peers[0], "dht")] else [])
            + Inject(c.(peers := c.peers + {Id(peers[0])}), peers[1..]).events
  {
  }

  /** Every announcement is on the connector's channel, for a listed peer
      whose id was not injected before. */
  lemma {:induction false} InjectAnnouncesOnlyNew(c: Connector, peers: seq<Peer>)
    ensures forall e :: e in Inject(c, peers).events ==>
      e.Announce? && e.channel == c.channel && e.source == "dht" && e.peer in peers && Id(e.peer) !in c.peers
    decreases |peers|
  {
    if |peers| > 0 {
      var c1 := c.(peers := c.peers + {Id(peers[0])});
      InjectAnnouncesOnlyNew(c1, peers[1..]);
      InjectUnfold(c, peers);
    }
  }

  /** Every listed peer whose id was not injected before is announced. */
  lemma {:induction false} InjectAnnouncesAllNew(c: Connector, peers: seq<Peer>)
    ensures forall i :: 0 <= i < |peers| && Id(peers[i]) !in c.peers ==> Announce(c.channel, peers[i], "dht") in Inject(c, peers).events
    decreases |peers|
  {
    if |peers| > 0 {
      InjectAnnouncesAllNew(c.(peers := c.peers + {Id(peers[0])}), peers[1..]);
      forall i | 0 <= i < |peers| && Id(peers[i]) !in c.peers
        ensures Announce(c.channel, peers[i], "dht") in Inject(c, peers).events
      {
        AnnouncedAt(c, peers, i);
      }
    }
  }

  /** The inductive step: peer `i` is announced by the head or by the rest. */
  lemma AnnouncedAt(c: Connector, peers: seq<Peer>, i: nat)
    requires i < |peers| && Id(peers[i]) !in c.peers
    requires forall k :: 0 <= k < |peers[1..]| && Id(peers[1..][k]) !in c.peers + {Id(peers[0])}
                 ==> Announce(c.channel, peers[1..][k], "dht") in Inject(c.(peers := c.peers + {Id(peers[0])}), peers[1..]).events
    ensures Announce(c.channel, peers[i], "dht") in Inject(c, peers).events
  {
    if Id(peers[i]) == Id(peers[0]) {
      AnnouncedFirst(c, peers, i);
    } else {
      assert peers[i] == peers[1..][i - 1];
      AnnouncedLater(c, peers, peers[i]);
    }
  }

  /** A new peer with the head's id is the head, announced first. */
  lemma AnnouncedFirst(c: Connector, peers: seq<Peer>, i: nat)
    requires i < |peers| && Id(peers[i]) !in c.peers && Id(peers[i]) == Id(peers[0])
    ensures Announce(c.channel, peers[i], "dht") in Inject(c, peers).events
  {
    IdInjective(peers[i], peers[0]);
    InjectUnfold(c, peers);
  }

  /** What the rest of the list announces, the whole list announces. */
  lemma AnnouncedLater(c: Connector, peers: seq<Peer>, q: Peer)
    requires |peers| > 0
    requires Announce(c.channel, q, "dht") in Inject(c.(peers := c.peers + {Id(peers[0])}), peers[1..]).events
    ensures Announce(c.channel, q, "dht") in Inject(c, peers).events
  {
    InjectUnfold(c, peers);
  }

  /** No event occurs twice in the list. */
  predicate Distinct(events: seq<Event>) {
    forall i, j :: 0 <= i < j < |events| ==> events[i] != events[j]
  }

  /** Putting at most one event absent from a distinct list in front keeps
      it distinct. */
  lemma DistinctPrepend(head: seq<Event>, rest: seq<Event>)
    requires |head| <= 1 && Distinct(rest)
    requires forall e :: e in head ==> e !in rest
    ensures Distinct(head + rest)
  {
    var s := head + rest;
    forall i, j | 0 <= i < j < |s|
      ensures s[i] != s[j]
    {
      if i < |head| {
        assert s[i] == head[i] && s[j] == rest[j - |head|];
        assert rest[j - |head|] in rest;
      } else {
        assert s[i] == rest[i - |head|] && s[j] == rest[j - |head|];
      }
    }
  }

  /** No peer is announced twice (and, ids being injective, no id either). */
  lemma {:induction false} InjectAnnouncesOnce(c: Connector, peers: seq<Peer>)
    ensures Distinct(Inject(c, peers).events)
    decreases |peers|
  {
    if |peers| > 0 {
      var c1 := c.(peers := c.peers + {Id(peers[0])});
      InjectAnnouncesOnce(c1, peers[1..]);
      InjectAnnouncesOnlyNew(c1, peers[1..]);
      InjectUnfold(c, peers);
      var rest := Inject(c1, peers[1..]).events;
      var head := if Id(peers[0]) !in c.peers then [Announce(c.channel, peers[0], "dht")] else [];
      assert Id(peers[0]) in c1.peers;
      DistinctPrepend(head, rest);
    }
  }

  /** `connect(peers)`: a missing list counts as empty; converting, then
      validating every peer, comes before injecting any; the first error's
      message goes to the error callback and nothing is injected. */
  function Connect(c: Connector, f: Formats, offers: Option<seq<Offer>>): (r: Outcome)
    ensures r.connector.channel == c.channel && r.connector.dropped == c.dropped
    ensures c.peers <= r.connector.peers
  {
    match Addresses(offers.GetOr([]))
    case Failure(m) => Fire(c, m)
    case Success(peers) =>
      match FirstInvalid(f, peers)
      case Some(m) => Fire(c, m)
      case None => Inject(c, peers)
  }

  /** An offer without `TCP` or one invalid peer rejects the whole list:
      nothing is injected and at most the first error is reported. A fully
      valid list injects every new peer and only announces, reporting
      nothing. */
  lemma ConnectValidatesFirst(c: Connector, f: Formats, offers: seq<Offer>)
    ensures var r := Connect(c, f, Some(offers));
      && (Addresses(offers).Failure? ==>
            && r.connector.peers == c.peers
            && r.events == (if c.eb == Armed then [Report(MissingTcp)] else []))
      && (Addresses(offers).Success? && FirstInvalid(f, Addresses(offers).value).Some? ==>
            && r.connector.peers == c.peers
            && r.events == (if c.eb == Armed then [Report(FirstInvalid(f, Addresses(offers).value).value)] else []))
      && (Addresses(offers).Success? && FirstInvalid(f, Addresses(offers).value).None? ==>
            && r.connector.peers == c.peers + Ids(Addresses(offers).value)
            && r.connector.eb == c.eb
            && (forall e :: e in r.events ==> e.Announce?)
            && forall i :: 0 <= i < |offers| && Id(offers[i].tcp.value) !in c.peers
                 ==> Announce(c.channel, offers[i].tcp.value, "dht") in r.events)
  {
    var a := Addresses(offers);
    if a.Success? && FirstInvalid(f, a.value).None? {
      InjectAnnouncesAllNew(c, a.value);
      InjectAnnouncesOnlyNew(c, a.value);
    }
  }

  /** A missing peer list injects nothing and reports nothing. */
  lemma ConnectNothing(c: Connector, f: Formats)
    ensures Connect(c, f, None) == Outcome(c, [])
  {
  }

  const AllDropped := "Cannot connect to provided peers"

  /** The swarm's `drop` handler. */
  function Drop(c: Connector, p: Peer): (r: Outcome)
    ensures Id(p) !in c.peers ==> r == Outcome(c, [])
    ensures Id(p) in c.peers ==> r.connector.dropped == c.dropped + 1 && r.connector.peers == c.peers
    ensures Report(AllDropped) in r.events <==> Id(p) in c.peers && c.dropped + 1 == |c.peers| && c.eb == Armed
  {
    if Id(p) in c.peers then
      var c1 := c.(dropped := c.dropped + 1);
      if c1.dropped == |c.peers| then Fire(c1, AllDropped) else Outcome(c1, [])
    else Outcome(c, [])
  }

  /** A run of drops: only the drop counter and the callback's state change,
      and the counter counts the drops of injected peers. */
  function Drops(c: Connector, ps: seq<Peer>): (r: Outcome)
    ensures r.connector == c.(dropped := r.connector.dropped, eb := r.connector.eb)
    ensures c.dropped <= r.connector.dropped <= c.dropped + |ps|
    ensures c.eb == Spent ==> r.connector.eb == Spent && r.events == []
    decreases |ps|
  {
    if |ps| == 0 then Outcome(c, [])
    else
      var first := Drop(c, ps[0]);
      var rest := Drops(first.connector, ps[1..]);
      Outcome(rest.connector, first.events + rest.events)
  }

  /** When every injected peer drops once, the terminal error is reported
      exactly once, on the last drop. */
  lemma {:induction false} EveryPeerDropped(c: Connector, ps: seq<Peer>)
    requires c.eb == Armed && |ps| > 0
    requires forall i :: 0 <= i < |ps| ==> Id(ps[i]) in c.peers
    requires c.dropped + |ps| == |c.peers|
    ensures Drops(c, ps).events == [Report(AllDropped)]
    ensures Drops(c, ps).connector.eb == Spent
    decreases |ps|
  {
    var first := Drop(c, ps[0]);
    if |ps| > 1 {
      assert forall i :: 0 <= i < |ps| - 1 ==> ps[1..][i] == ps[i + 1];
      EveryPeerDropped(first.connector, ps[1..]);
      assert first.events == [];
    }
  }

  /** The error callback hears at most one message over the connector's life:
      once spent, `connect` reports nothing ... */
  lemma ConnectWhenSpent(c: Connector, f: Formats, offers: Option<seq<Offer>>)
    requires c.eb == Spent
    ensures forall e :: e in Connect(c, f, offers).events ==> e.Announce?
    ensures Connect(c, f, offers).connector.eb == Spent
  {
    var a := Addresses(offers.GetOr([]));
    if a.Success? && FirstInvalid(f, a.value).None? {
      InjectAnnouncesOnlyNew(c, a.value);
    }
  }

  /** ... and neither does a drop. */
  lemma DropWhenSpent(c: Connector, p: Peer)
    requires c.eb == Spent
    ensures Drop(c, p).events == [] && Drop(c, p).connector.eb == Spent
  {
  }

  // ---------------------------------------------------------------------
  // The receiver bindings as written
  // ---------------------------------------------------------------------

  /** `this.eb(message)` runs the `oneShot` wrapper with the connector, not
      the wrapper, as `this`: it reads the connector's own `func` property
      and replaces it with a no-op before calling what it read. */
  datatype ReceiverFunc = Absent | NoOp

  datatype WrittenConnector = WrittenConnector(channel: string, peers: set<string>, dropped: int, func: ReceiverFunc)

  const NotCallable := "Cannot read properties of undefined (reading 'apply')"

  /** Result of a call as written: the connector after it and the message of
      the exception that escapes, if any. */
  datatype Written = Written(connector: WrittenConnector, thrown: Option<string>)

  /** `this.eb(message)` as written: the first call throws, later ones do nothing;
      the message never reaches the wrapped callback. */
  function FireAsWritten(c: WrittenConnector, message: string): (r: Written)
    ensures r.connector == c.(func := NoOp)
    ensures r.thrown.Some? <==> c.func == Absent
  {
    Written(c.(func := NoOp), if c.func == Absent then Some(NotCallable) else None)
  }

  const UnboundPeers := "Cannot read properties of undefined (reading 'has')"

  /** `connect(peers)` as written: `peers.forEach(this._connect)` passes
      `_connect` without its receiver, so its first `this.peers.has` throws;
      the `catch` hands that message to `this.eb`, which behaves as above. */
  function ConnectAsWritten(c: WrittenConnector, f: Formats, offers: Option<seq<Offer>>): (r: Written)
  {
    match Addresses(offers.GetOr([]))
    case Failure(m) => FireAsWritten(c, m)
    case Success(peers) =>
      match FirstInvalid(f, peers)
      case Some(m) => FireAsWritten(c, m)
      case None => if |peers| == 0 then Written(c, None) else FireAsWritten(c, UnboundPeers)
  }

  /** As written, `connect` never injects a peer, and on a new connector a
      valid peer list makes `connect` itself throw. */
  lemma ConnectAsWrittenInjectsNothing(c: WrittenConnector, f: Formats, offers: Option<seq<Offer>>)
    ensures ConnectAsWritten(c, f, offers).connector.peers == c.peers
    ensures c.func == Absent && offers.Some? && |offers.value| > 0 ==> ConnectAsWritten(c, f, offers).thrown.Some?
  {
  }

  /** The input that shows the binding errors: one valid peer offered to a
      new connector. As written nothing is announced and `connect` throws;
      the corrected connector announces the peer and reports nothing. */
  lemma OneValidPeerFinding(channel: string, f: Formats, p: Peer)
    requires f.isV4(p.host) && 1 <= p.port <= 65535
    ensures var w := ConnectAsWritten(WrittenConnector(channel, {}, 0, Absent), f, Some([Offer(Some(p))]));
      w.connector.peers == {} && w.thrown == Some(NotCallable)
    ensures Connect(NewConnector(channel), f, Some([Offer(Some(p))])).events == [Announce(channel, p, "dht")]
  {
    var c := NewConnector(channel);
    var a := Addresses([Offer(Some(p))]);
    assert a.Success? && a.value == [p];
    assert FirstInvalid(f, [p]).None?;
    InjectUnfold(c, [p]);
    assert Inject(c.(peers := {Id(p)}), []).events == [];
  }

  /** The input that shows the `oneShot` receiver error: the first report of
      a new connector. As written the callback is not called and the call
      throws; the corrected wrapper delivers the message once. */
  lemma FirstReportFinding(channel: string, message: string)
    ensures FireAsWritten(WrittenConnector(channel, {}, 0, Absent), message).thrown == Some(NotCallable)
    ensures Fire(NewConnector(channel), message).events == [Report(message)]
    ensures Fire(Fire(NewConnector(channel), message).connector, message).events == []
  {
  }
}

=== FILE: pending_requests.dfy ===
/** The waiting-list part of `Archiver` in src/archiver.js: `want` queues a
    callback for an archive that is not stored yet, `unwant` withdraws it,
    and `replicationFinished` hands the stored archive (or the lookup error)
    to every queued callback once, in queue order, through `asyncEach`.
    Callbacks are compared by identity, modelled by equality on `W`; what
    they are called with is an opaque `O`. */
module PendingRequests {
  import opened AsyncEach

  /** The archiver's `callbacks` (archive key -> waiting callbacks) and
      `keys` (discovery key -> archive key) objects. */
  datatype Pending<W> = Pending(callbacks: map<string, seq<W>>, keys: map<string, string>)

  /** What `want` did with the caller's callbacks. */
  datatype Wanted = DeliveredNow | Queued

  datatype WantResult<W> = WantResult(pending: Pending<W>, outcome: Wanted)

  /** `want(key, onArchive, cb)`: a stored archive goes straight to
      `onArchive` and nothing is queued (`cb` is not called); otherwise
      `onArchive` joins the key's queue, the discovery key is mapped back to
      the archive key, and `cb` is called. */
  function Want<W>(p: Pending<W>, discovery: string -> string, key: string, stored: bool, w: W): (r: WantResult<W>)
    ensures stored ==> r == WantResult(p, DeliveredNow)
    ensures !stored ==> r.outcome == Queued
    ensures !stored ==> (
      && key in r.pending.callbacks
      && r.pending.callbacks[key] == (if key in p.callbacks then p.callbacks[key] else []) + [w]
      && r.pending.keys == p.keys[discovery(key) := key])
    ensures forall k :: k != key ==> (k in r.pending.callbacks <==> k in p.callbacks)
    ensures forall k :: k != key && k in p.callbacks ==> r.pending.callbacks[k] == p.callbacks[k]
  {
    if stored then WantResult(p, DeliveredNow)
    else
      var queue := if key in p.callbacks then p.callbacks[key] else [];
      WantResult(Pending(p.callbacks[key := queue + [w]], p.keys[discovery(key) := key]), Queued)
  }

  /** The positions of `queue` that do not hold `w`, in increasing order. */
  function Survivors<W(==)>(queue: seq<W>, w: W): (at: seq<nat>)
    ensures forall i :: 0 <= i < |at| ==> at[i] < |queue| && queue[at[i]] != w
    ensures forall i, j :: 0 <= i < j < |at| ==> at[i] < at[j]
    ensures forall k :: 0 <= k < |queue| && queue[k] != w ==> k in at
    decreases |queue|
  {
    if |queue| == 0 then []
    else
      var init := queue[..|queue| - 1];
      var rest := Survivors(init, w);
      assert forall i :: 0 <= i < |init| ==> init[i] == queue[i];
      if queue[|queue| - 1] == w then rest else rest + [|queue| - 1]
  }

  /** `queue.filter(c => c != w)`: every occurrence of `w` removed, all
      other callbacks kept with their multiplicity and in their order. */
  function Without<W(==)>(queue: seq<W>, w: W): (r: seq<W>)
    ensures w !in r
    ensures multiset(r) == multiset(queue)[w := 0]
    decreases |queue|
  {
    if |queue| == 0 then []
    else
      var init := queue[..|queue| - 1];
      var last := queue[|queue| - 1];
      assert queue == init + [last];
      Without(init, w) + (if last == w then [] else [last])
  }

  /** The `i`-th callback left by the filter is the queue's `i`-th survivor:
      the filter keeps the queue's order. */
  lemma {:induction false} WithoutInOrder<W>(queue: seq<W>, w: W)
    ensures |Without(queue, w)| == |Survivors(queue, w)|
    ensures forall i :: 0 <= i < |Without(queue, w)| ==> Without(queue, w)[i] == queue[Survivors(queue, w)[i]]
    decreases |queue|
  {
    if |queue| > 0 {
      var init := queue[..|queue| - 1];
      WithoutInOrder(init, w);
      assert forall i :: 0 <= i < |init| ==> init[i] == queue[i];
    }
  }

  /** One more callback at the back is kept unless it is `w`. */
  lemma WithoutSnoc<W>(q: seq<W>, x: W, w: W)
    ensures Without(q + [x], w) == Without(q, w) + (if x == w then [] else [x])
  {
    assert (q + [x])[..|q + [x]| - 1] == q;
  }

  /** Filtering distributes over concatenation: the survivors of a longer
      queue are those of its front followed by those of its back. */
  lemma {:induction false} WithoutConcat<W>(a: seq<W>, b: seq<W>, w: W)
    ensures Without(a + b, w) == Without(a, w) + Without(b, w)
    decreases |b|
  {
    if |b| == 0 {
      assert a + b == a;
      assert Without(b, w) == [];
    } else {
      var b0 := b[..|b| - 1];
      var x := b[|b| - 1];
      assert b == b0 + [x];
      assert a + b == (a + b0) + [x];
      WithoutConcat(a, b0, w);
      WithoutSnoc(a + b0, x, w);
      WithoutSnoc(b0, x, w);
      Reassociate(Without(a, w), Without(b0, w), if x == w then [] else [x]);
    }
  }

  lemma Reassociate<W>(p: seq<W>, q: seq<W>, r: seq<W>)
    ensures (p + q) + r == p + (q + r)
  {
  }

  /** Filtering out a callback that is not queued leaves the queue as it was. */
  lemma {:induction false} WithoutKeepsOthers<W>(queue: seq<W>, w: W)
    requires w !in queue
    ensures Without(queue, w) == queue
    decreases |queue|
  {
    if |queue| > 0 {
      var init := queue[..|queue| - 1];
      assert queue[|queue| - 1] in queue;
      WithoutKeepsOthers(init, w);
      assert init + [queue[|queue| - 1]] == queue;
    }
  }

  /** `unwant(key, cb)`: drop `cb` from the key's queue if the key has one;
      the other callbacks keep their multiplicity and their order. */
  function Unwant<W(==)>(p: Pending<W>, key: string, w: W): (r: Pending<W>)
    ensures r.keys == p.keys
    ensures r.callbacks.Keys == p.callbacks.Keys
    ensures key in p.callbacks ==> (
      && w !in r.callbacks[key]
      && multiset(r.callbacks[key]) == multiset(p.callbacks[key])[w := 0]
      && |r.callbacks[key]| == |Survivors(p.callbacks[key], w)|
      && forall i :: 0 <= i < |r.callbacks[key]| ==> r.callbacks[key][i] == p.callbacks[key][Survivors(p.callbacks[key], w)[i]])
    ensures forall k :: k in p.callbacks && k != key ==> r.callbacks[k] == p.callbacks[k]
  {
    if key in p.callbacks then
      WithoutInOrder(p.callbacks[key], w);
      Pending(p.callbacks[key := Without(p.callbacks[key], w)], p.keys)
    else p
  }

  /** Withdrawing a callback that was just queued for an archive nobody
      else waited for leaves an empty queue behind, not an absent one. */
  lemma WantThenUnwant<W>(p: Pending<W>, discovery: string -> string, key: string, w: W)
    requires key !in p.callbacks
    ensures var q := Unwant(Want(p, discovery, key, false, w).pending, key, w);
      key in q.callbacks && q.callbacks[key] == []
  {
    WithoutSnoc([], w, w);
    assert [] + [w] == [w];
  }

  /** One `replicationCallbacks` handler call: invoke the callback, swallow
      whatever it throws, go on. */
  datatype Delivery<W, O> = Delivery(callback: W, outcome: O)

  function DeliverStep<W, O>(outcome: O, w: W, left: nat): Step<Delivery<W, O>> {
    Step([Delivery(w, outcome)], CallNext)
  }

  /** `replicationCallbacks(callbacks, error, data)`. */
  function ReplicationCallbacks<W, O>(queue: seq<W>, outcome: O): seq<Delivery<W, O>> {
    Run(queue, (w: W, left: nat) => DeliverStep(outcome, w, left)).emitted
  }

  /** Every queued callback is called exactly once, in queue order, with the
      same outcome; a callback that throws does not stop the others. */
  lemma {:induction false} ReplicationCallbacksCallsAll<W, O>(queue: seq<W>, outcome: O)
    ensures var r := ReplicationCallbacks(queue, outcome);
      |r| == |queue| && forall i :: 0 <= i < |queue| ==> r[i] == Delivery(queue[i], outcome)
    decreases |queue|
  {
    if |queue| > 0 {
      ReplicationCallbacksCallsAll(queue[1..], outcome);
      var r := ReplicationCallbacks(queue, outcome);
      var rest := ReplicationCallbacks(queue[1..], outcome);
      assert r == [Delivery(queue[0], outcome)] + rest;
      forall i | 1 <= i < |queue| ensures r[i] == Delivery(queue[i], outcome) {
        assert r[i] == rest[i - 1];
        assert queue[1..][i - 1] == queue[i];
      }
    }
  }

  datatype Finished<W, O> = Finished(pending: Pending<W>, deliveries: seq<Delivery<W, O>>)

  /** `replicationFinished(key)`: take the key's queue out, then, if there
      was one, look the archive up and deliver the outcome to the queue. */
  function ReplicationFinished<W, O>(p: Pending<W>, key: string, outcome: O): (r: Finished<W, O>)
    ensures key !in r.pending.callbacks
    ensures r.pending.keys == p.keys
    ensures forall k :: k != key ==> (k in r.pending.callbacks <==> k in p.callbacks)
    ensures forall k :: k != key && k in p.callbacks ==> r.pending.callbacks[k] == p.callbacks[k]
  {
    var rest := Pending(p.callbacks - {key}, p.keys);
    if key in p.callbacks then Finished(rest, ReplicationCallbacks(p.callbacks[key], outcome))
    else Finished(rest, [])
  }

  /** Every waiter of the key is served once, in the order it asked; a second
      completion for the same key serves nobody. */
  lemma ReplicationFinishedServesOnce<W, O>(p: Pending<W>, key: string, outcome: O, again: O)
    ensures var r := ReplicationFinished(p, key, outcome);
      && (key in p.callbacks ==>
            |r.deliveries| == |p.callbacks[key]|
            && forall i :: 0 <= i < |r.deliveries| ==> r.deliveries[i] == Delivery(p.callbacks[key][i], outcome))
      && (key !in p.callbacks ==> r.deliveries == [])
      && ReplicationFinished(r.pending, key, again).deliveries == []
  {
    if key in p.callbacks {
      ReplicationCallbacksCallsAll(p.callbacks[key], outcome);
    }
  }

  /** A queued callback that is withdrawn before the key completes is never
      called, and one that stays queued is. */
  lemma UnwantedNotServed<W, O>(p: Pending<W>, key: string, w: W, outcome: O)
    requires key in p.callbacks
    ensures Delivery(w, outcome) !in ReplicationFinished(Unwant(p, key, w), key, outcome).deliveries
    ensures forall x :: x in p.callbacks[key] && x != w
              ==> Delivery(x, outcome) in ReplicationFinished(Unwant(p, key, w), key, outcome).deliveries
  {
    var q := Unwant(p, key, w);
    ReplicationCallbacksCallsAll(q.callbacks[key], outcome);
    var d := ReplicationFinished(q, key, outcome).deliveries;
    forall x | x in p.callbacks[key] && x != w
      ensures Delivery(x, outcome) in d
    {
      var i :| 0 <= i < |q.callbacks[key]| && q.callbacks[key][i] == x;
      assert d[i] == Delivery(x, outcome);
    }
  }
}

=== FILE: replication.dfy ===
/** How `Archiver.open` of src/archiver.js finds and tracks the feeds of a
    replicated archive: the metadata feed is opened through the
    `FeedTracker`; its first block (and, failing that, its last block) is
    decoded to find the content feed's key (`feedKey`, `decodeContent`); the
    content feed is opened with the metadata feed as its parent; and when a
    feed finishes downloading, the waiters of its parent's key are released.
    Feed keys are modelled as their bytes (`buffer()` turns a hex key into
    the same bytes); the discovery hash, the feed factory and the index
    decoder are parameters. */
module Replication {
  import opened Wrappers
  import FeedTracker

  type Bytes = seq<bv8>

  /** The fields of a decoded metadata block that `feedKey` reads. */
  datatype Index = Index(kind: Option<string>, content: Option<Bytes>)

  /** A content key is 32 bytes long. */
  const KeyLength: nat := 32

  /** `feedKey(data)`: the `content` of a block that decodes to an `index`
      message with a 32-byte `content`; nothing when decoding throws or the
      message is anything else. */
  function FeedKey(decode: Bytes -> Result<Index>, data: Bytes): (r: Option<Bytes>)
    ensures r.Some? ==> |r.value| == KeyLength
    ensures r.Some? <==> decode(data).Success? && decode(data).value.kind == Some("index")
                         && decode(data).value.content.Some? && |decode(data).value.content.value| == KeyLength
    ensures r.Some? ==> Some(r.value) == decode(data).value.content
  {
    match decode(data)
    case Failure(_) => None
    case Success(index) =>
      if index.kind == Some("index") && index.content.Some? && |index.content.value| == KeyLength then index.content
      else None
  }

  /** `decodeContent(error, stream, data, parent)` without its side effect:
      the content key a block read yields, nothing for a failed read. */
  function DecodeContent(decode: Bytes -> Result<Index>, read: Result<Bytes>): (r: Option<Bytes>)
    ensures read.Failure? ==> r == None
    ensures read.Success? ==> r == FeedKey(decode, read.value)
  {
    match read
    case Failure(_) => None
    case Success(data) => FeedKey(decode, data)
  }

  /** Where the content key was found. */
  datatype Found = Found(block: nat, key: Bytes)

  /** The content-key search of `open` for a metadata feed of `blocks` blocks:
      block 0 first; the last block only when block 0 yields no key and the
      feed is not empty. `read` is what reading each block delivers. */
  function ContentKey(decode: Bytes -> Result<Index>, read: nat -> Result<Bytes>, blocks: nat): (r: Option<Found>)
    ensures r.None? <==> DecodeContent(decode, read(0)).None?
                         && (blocks == 0 || DecodeContent(decode, read(blocks - 1)).None?)
  {
    match DecodeContent(decode, read(0))
    case Some(k) => Some(Found(0, k))
    case None =>
      if blocks > 0 then
        match DecodeContent(decode, read(blocks - 1))
        case Some(k) => Some(Found(blocks - 1, k))
        case None => None
      else None
  }

  /** The search prefers block 0, falls back to the last block, and yields
      a 32-byte key only from a block that decodes to an index. */
  lemma ContentKeySearch(decode: Bytes -> Result<Index>, read: nat -> Result<Bytes>, blocks: nat)
    ensures var r := ContentKey(decode, read, blocks);
      && (DecodeContent(decode, read(0)).Some? ==> r == Some(Found(0, DecodeContent(decode, read(0)).value)))
      && (r.Some? ==> (r.value.block == 0 || r.value.block == blocks - 1)
                      && |r.value.key| == KeyLength
                      && read(r.value.block).Success?
                      && FeedKey(decode, read(r.value.block).value) == Some(r.value.key))
  {
  }

  /** A metadata feed whose blocks are all unreadable or hold no index never
      leads to a content feed. */
  lemma NoIndexNoContent(decode: Bytes -> Result<Index>, read: nat -> Result<Bytes>, blocks: nat)
    requires forall i :: 0 <= i && (i == 0 || i + 1 == blocks) ==> DecodeContent(decode, read(i)).None?
    ensures ContentKey(decode, read, blocks) == None
  {
    assert DecodeContent(decode, read(0)).None?;
    if blocks > 0 {
      assert DecodeContent(decode, read(blocks - 1)).None?;
    }
  }

  /** `parent = typeof parent === 'object' ? parent : feed`, then the
      `download-finished` rule: the finished feed releases the waiters of
      `parent`'s key unless it may itself be a metadata feed (`maybeContent`)
      and is its own parent. */
  function ReleaseOnFinish<F(==)>(maybeContent: bool, parent: Option<F>, feed: F): (r: Option<F>)
    ensures r.Some? ==> r.value == parent.GetOr(feed)
    ensures r.None? <==> maybeContent && parent.GetOr(feed) == feed
  {
    var p := parent.GetOr(feed);
    if !maybeContent || p != feed then Some(p) else None
  }

  /** The feed `open` returns and the tracker after it; a feed opened on a
      stream that is already destroyed is closed again at once. */
  datatype Opened<F> = Opened(tracker: FeedTracker.Tracker<F>, feed: F, release: Option<F>)

  /** `open(key, maybeContent, stream, parent, feed)`, up to the block reads. */
  function Open<F(==)>(t: FeedTracker.Tracker<F>, discovery: Bytes -> string, create: Bytes -> F, key: Bytes,
                       maybeContent: bool, destroyed: bool, parent: Option<F>, given: Option<F>): (r: Opened<F>)
    requires FeedTracker.Valid(t)
    ensures FeedTracker.Valid(r.tracker)
    ensures r.release == ReleaseOnFinish(maybeContent, parent, r.feed)
    ensures !destroyed ==> r.tracker == FeedTracker.Open(t, discovery, create, key, given).tracker
  {
    var o := FeedTracker.Open(t, discovery, create, key, given);
    var release := ReleaseOnFinish(maybeContent, parent, o.feed);
    if destroyed then
      match FeedTracker.Close(o.tracker, discovery(key))
      case Success(c) => Opened(c.tracker, o.feed, release)
      case Failure(_) => Opened(o.tracker, o.feed, release)
    else Opened(o.tracker, o.feed, release)
  }

  /** Opening a feed on a stream that is already destroyed leaves the
      tracker as it was. */
  lemma OpenOnDestroyedStream<F>(t: FeedTracker.Tracker<F>, discovery: Bytes -> string, create: Bytes -> F, key: Bytes,
                                  maybeContent: bool, parent: Option<F>, given: Option<F>)
    requires FeedTracker.Valid(t)
    ensures Open(t, discovery, create, key, maybeContent, true, parent, given).tracker == t
  {
    FeedTracker.OpenCloseRoundTrip(t, discovery, create, key, given);
  }

  /** A replicated archive: the metadata feed opened for a peer (its parent
      argument is a key string, not an object) and, when the key search
      succeeds, the content feed opened with the metadata feed as parent. */
  datatype Session<F> = Session(tracker: FeedTracker.Tracker<F>, metadata: Opened<F>, content: Option<Opened<F>>)

  function Replicate<F(==)>(t: FeedTracker.Tracker<F>, discovery: Bytes -> string, create: Bytes -> F, key: Bytes,
                            given: Option<F>, decode: Bytes -> Result<Index>, read: nat -> Result<Bytes>, blocks: nat): (s: Session<F>)
    requires FeedTracker.Valid(t)
    ensures FeedTracker.Valid(s.tracker)
  {
    var m := Open(t, discovery, create, key, true, false, None, given);
    match ContentKey(decode, read, blocks)
    case None => Session(m.tracker, m, None)
    case Some(found) =>
      var c := Open(m.tracker, discovery, create, found.key, false, false, Some(m.feed), None);
      Session(c.tracker, m, Some(c))
  }

  /** In a replication session only the content feed's finish releases the
      archive's waiters, under the metadata feed; the metadata feed's own
      finish releases nobody, so an archive without a content feed is never
      reported finished. Both feeds stay tracked while the stream is open. */
  lemma ReplicateReleases<F>(t: FeedTracker.Tracker<F>, discovery: Bytes -> string, create: Bytes -> F, key: Bytes,
                              given: Option<F>, decode: Bytes -> Result<Index>, read: nat -> Result<Bytes>, blocks: nat)
    requires FeedTracker.Valid(t)
    ensures var s := Replicate(t, discovery, create, key, given, decode, read, blocks);
      && s.metadata.release == None
      && discovery(key) in s.tracker.feeds
      && (s.content.Some? <==> ContentKey(decode, read, blocks).Some?)
      && (s.content.Some? ==>
            && s.content.value.release == Some(s.metadata.feed)
            && discovery(ContentKey(decode, read, blocks).value.key) in s.tracker.feeds)
  {
  }
}

=== FILE: rpc.dfy ===
/** The control-plane request classifier of src/rpc.js: request validation
    (`_validate_request`), the decisions of `_route`, the `_commands` table,
    and the status and header rules of `_respond`. The HTTP server, the
    request stream and the service behind the commands are abstracted: the
    parsed body, what each service call returns, `JSON.stringify` and the
    messages `assert.ok` composes are inputs. */
module Rpc {
  import opened Wrappers
  import Decimal

  const DefaultHost := "localhost"
  const DefaultPort := 3292

  /** A JSON value as `JSON.parse` returns it. Numbers are integers; an
      object lists its own properties in property order, each key once. */
  datatype Json =
    | JNull
    | JBool(b: bool)
    | JNum(n: int)
    | JStr(s: string)
    | JArr(items: seq<Json>)
    | JObj(fields: seq<(string, Json)>)

  /** JavaScript truthiness of a value; `None` is `undefined`. */
  predicate Truthy(v: Option<Json>) {
    match v
    case None => false
    case Some(JNull) => false
    case Some(JBool(b)) => b
    case Some(JNum(n)) => n != 0
    case Some(JStr(s)) => s != ""
    case Some(_) => true
  }

  /** `json[name]`: an object's property, `undefined` for anything else. */
  function Get(v: Json, name: string): (r: Option<Json>)
    ensures r.Some? ==> v.JObj? && exists i :: 0 <= i < |v.fields| && v.fields[i] == (name, r.value)
  {
    match v
    case JObj(fields) => Lookup(fields, name)
    case _ => None
  }

  function Lookup(fields: seq<(string, Json)>, name: string): (r: Option<Json>)
    ensures r.Some? ==> exists i :: 0 <= i < |fields| && fields[i] == (name, r.value)
    ensures r.None? <==> forall i :: 0 <= i < |fields| ==> fields[i].0 != name
    decreases |fields|
  {
    if |fields| == 0 then None
    else if fields[0].0 == name then Some(fields[0].1)
    else
      var r := Lookup(fields[1..], name);
      assert forall i :: 1 <= i < |fields| ==> fields[i] == fields[1..][i - 1];
      r
  }

  const NoPrimitive := "Cannot convert object to primitive value"

  /** Whether turning `v` into a property key throws. A parsed value is never
      callable, so an object with its own `toString` field has no usable
      `toString` and its `valueOf` returns the object itself; an array throws
      when any of its elements, at any depth, does. */
  predicate Unconvertible(v: Json)
    decreases v
  {
    match v
    case JObj(fields) => Lookup(fields, "toString").Some?
    case JArr(items) => exists i :: 0 <= i < |items| && Unconvertible(items[i])
    case _ => false
  }

  /** `String(v)`, the conversion a property-key lookup applies, or the
      `TypeError` it throws. */
  function ToText(v: Json): (r: Result<string>)
    ensures r.Failure? <==> Unconvertible(v)
    ensures r.Failure? ==> r.error == NoPrimitive
    decreases v, 1
  {
    match v
    case JNull => Success("null")
    case JBool(b) => Success(if b then "true" else "false")
    case JNum(n) => Success(Decimal.IntToString(n))
    case JStr(s) => Success(s)
    case JArr(items) => JoinText(items)
    case JObj(fields) =>
      if Lookup(fields, "toString").Some? then Failure(NoPrimitive) else Success("[object Object]")
  }

  /** `Array.prototype.join(',')`: `null` elements become empty, and the
      first element that cannot be converted throws. */
  function JoinText(items: seq<Json>): (r: Result<string>)
    ensures r.Failure? <==> exists i :: 0 <= i < |items| && Unconvertible(items[i])
    ensures r.Failure? ==> r.error == NoPrimitive
    decreases items, 0
  {
    if |items| == 0 then Success("")
    else
      var head := if items[0] == JNull then Success("") else ToText(items[0]);
      var tail := JoinText(items[1..]);
      assert forall i :: 1 <= i < |items| ==> items[i] == items[1..][i - 1];
      if head.Failure? then head
      else if tail.Failure? then tail
      else Success(head.value + (if |items| > 1 then "," else "") + tail.value)
  }

  /** Whether the body's `command` property is present and cannot be turned
      into a property key. */
  predicate CommandUnconvertible(json: Json) {
    Get(json, "command").Some? && Unconvertible(Get(json, "command").value)
  }

  /** The property key `hasOwnProperty(json.command)` tests, or the error
      converting the property throws. */
  function CommandKey(json: Json): (r: Result<string>)
    ensures r.Failure? <==> CommandUnconvertible(json)
    ensures r.Failure? ==> r.error == NoPrimitive
    ensures Get(json, "command").None? ==> r == Success("undefined")
  {
    match Get(json, "command")
    case None => Success("undefined")
    case Some(v) => ToText(v)
  }

  /** The own keys of the `_commands` table. */
  datatype Command = IdCommand | Download | Upload | Cancel

  function CommandNamed(key: string): (r: Option<Command>)
    ensures r.Some? <==> key in {"id", "download", "upload", "cancel"}
  {
    if key == "id" then Some(IdCommand)
    else if key == "download" then Some(Download)
    else if key == "upload" then Some(Upload)
    else if key == "cancel" then Some(Cancel)
    else None
  }

  /** A command given as a one-element array names the same command as the
      bare string, because the key is the value's string conversion. */
  lemma ArrayCommandName(fields: seq<(string, Json)>, name: string)
    requires Lookup(fields, "command") == Some(JArr([JStr(name)]))
    ensures CommandKey(JObj(fields)) == Success(name)
  {
    var single := [JStr(name)];
    assert single[1..] == [] && JoinText(single[1..]) == Success("");
    assert ToText(single[0]) == Success(name);
    assert name + "" + "" == name;
    assert JoinText(single) == Success(name);
    assert Get(JObj(fields), "command") == Some(JArr(single));
  }

  // ---------------------------------------------------------------------
  // Requests and the service behind the commands
  // ---------------------------------------------------------------------

  /** What the request body delivered: a stream error, or the whole body,
      given here as what `JSON.parse` makes of it. */
  datatype Body = StreamError(message: string) | Received(parsed: Result<Json>)

  datatype Request = Request(verb: string, contentType: Option<string>, body: Body)

  /** How a promise returned by the service settles, or the exception thrown
      while calling it. */
  datatype Settled = Fulfilled(value: Json) | Rejected(reason: Json) | Threw(message: string)

  /** The service: the network id (or the exception reading it), the
      `download` and `upload` promises, and `cancel_upload`. */
  datatype Service = Service(
    networkId: Result<string>,
    download: (Json, Json) -> Settled,
    upload: (Json, Json) -> Settled,
    cancelUpload: Json -> Result<bool>)

  /** ASCII lower case; HTTP method names are ASCII tokens. */
  function ToLower(s: string): (r: string)
    ensures |r| == |s|
    ensures forall i :: 0 <= i < |s| ==> r[i] == (if 'A' <= s[i] <= 'Z' then (s[i] as int + 32) as char else s[i])
  {
    seq(|s|, i requires 0 <= i < |s| => if 'A' <= s[i] <= 'Z' then (s[i] as int + 32) as char else s[i])
  }

  const InvalidMethod := "Invalid request method"
  const InvalidContentType := "Invalid content type"
  const InvalidCommand := "Invalid command"

  /** `_validate_request`: the string it throws, if any. */
  function ValidateRequest(verb: string, contentType: Option<string>): (r: Option<string>)
    ensures r.None? <==> ToLower(verb) == "post" && contentType == Some("application/json")
    ensures r == Some(InvalidMethod) <==> ToLower(verb) != "post"
  {
    if ToLower(verb) != "post" then Some(InvalidMethod)
    else if contentType != Some("application/json") then Some(InvalidContentType)
    else None
  }

  /** Method names are matched without regard to ASCII case. */
  lemma PostInAnyCase(verb: string)
    requires |verb| == 4
    requires verb[0] in "pP" && verb[1] in "oO" && verb[2] in "sS" && verb[3] in "tT"
    ensures ToLower(verb) == "post"
  {
  }

  /** What `_route` asks `_respond` to send: the data and the status code
      argument (`None` when the call passes none), or the uncaught exception
      that ends the process. */
  datatype Answer = Send(data: Json, code: Option<int>) | Crash(message: string)

  function ErrorData(message: string): Json {
    JObj([("error", JStr(message))])
  }

  function Failed(message: string): Answer {
    Send(ErrorData(message), Some(400))
  }

  /** The reply a settled service promise leads to. */
  function Settle(field: string, s: Settled): Answer {
    match s
    case Fulfilled(v) => Send(JObj([(field, v)]), None)
    case Rejected(reason) => Send(JObj([("error", reason)]), Some(400))
    case Threw(message) => Failed(message)
  }

  const NotAnObject := "Cannot convert undefined or null to object"

  /** `Object.keys(files).map(key => [key, files[key]])`. */
  function FilePairs(files: Option<Json>): (r: Result<Json>)
    ensures r.Failure? <==> files.None? || files == Some(JNull)
    ensures r.Success? ==> r.value.JArr?
  {
    match files
    case None => Failure(NotAnObject)
    case Some(JNull) => Failure(NotAnObject)
    case Some(JObj(fields)) =>
      Success(JArr(seq(|fields|, i requires 0 <= i < |fields| => JArr([JStr(fields[i].0), fields[i].1]))))
    case Some(JArr(items)) =>
      Success(JArr(seq(|items|, i requires 0 <= i < |items| => JArr([JStr(Decimal.NatToString(i)), items[i]]))))
    case Some(JStr(s)) =>
      Success(JArr(seq(|s|, i requires 0 <= i < |s| => JArr([JStr(Decimal.NatToString(i)), JStr([s[i]])]))))
    case Some(_) => Success(JArr([]))
  }

  /** The upload conversion turns an object into one `[key, value]` pair per
      own property, in property order. */
  lemma FilePairsOfObject(fields: seq<(string, Json)>)
    ensures var r := FilePairs(Some(JObj(fields)));
      && r.Success? && |r.value.items| == |fields|
      && forall i :: 0 <= i < |fields| ==> r.value.items[i] == JArr([JStr(fields[i].0), fields[i].1])
  {
  }

  /** One entry of `_commands`, run inside `_route`'s `try`. `assertMessage`
      is the message `assert.ok` gives for the asserted expression. */
  function RunCommand(c: Command, json: Json, svc: Service, assertMessage: string -> string): Answer {
    match c
    case IdCommand =>
      (match svc.networkId
       case Success(id) => Send(JObj([("id", JStr(id))]), None)
       case Failure(m) => Failed(m))
    case Download =>
      if !Truthy(Get(json, "hash")) then Failed(assertMessage("json.hash"))
      else if !Truthy(Get(json, "dest")) then Failed(assertMessage("json.dest"))
      else Settle("files", svc.download(Get(json, "hash").value, Get(json, "dest").value))
    case Upload =>
      if !Truthy(Get(json, "id")) then Failed(assertMessage("json.id"))
      else
        (match FilePairs(Get(json, "files"))
         case Failure(m) => Failed(m)
         case Success(pairs) => Settle("hash", svc.upload(Get(json, "id").value, pairs)))
    case Cancel =>
      if !Truthy(Get(json, "hash")) then Failed(assertMessage("json.hash"))
      else
        var hash := Get(json, "hash").value;
        (match svc.cancelUpload(hash)
         case Failure(m) => Failed(m)
         case Success(true) => Send(JObj([("ok", hash)]), None)
         case Success(false) => Send(JObj([("not_found", hash)]), Some(404)))
  }

  const NullCommand := "Cannot read properties of null (reading 'command')"

  /** `_route`: validate, read the body, parse it, look the command up, run it. */
  function Route(req: Request, svc: Service, assertMessage: string -> string): Answer {
    match ValidateRequest(req.verb, req.contentType)
    case Some(m) => Failed(m)
    case None =>
      match req.body
      case StreamError(m) => Failed(m)
      case Received(Failure(m)) => Failed(m)
      case Received(Success(json)) =>
        if json == JNull then Crash(NullCommand)
        else
          match CommandKey(json)
          case Failure(m) => Crash(m)
          case Success(key) =>
            match CommandNamed(key)
            case None => Failed(InvalidCommand)
            case Some(c) => RunCommand(c, json, svc, assertMessage)
  }

  /** `_route` with the command check guarded as its neighbours are: a
      command that cannot be turned into a key is answered 400 `Invalid
      command` like any other unknown command. */
  function RouteGuarded(req: Request, svc: Service, assertMessage: string -> string): Answer {
    match ValidateRequest(req.verb, req.contentType)
    case Some(m) => Failed(m)
    case None =>
      match req.body
      case StreamError(m) => Failed(m)
      case Received(Failure(m)) => Failed(m)
      case Received(Success(json)) =>
        if json == JNull then Crash(NullCommand)
        else
          match CommandKey(json)
          case Failure(_) => Failed(InvalidCommand)
          case Success(key) =>
            match CommandNamed(key)
            case None => Failed(InvalidCommand)
            case Some(c) => RunCommand(c, json, svc, assertMessage)
  }

  /** `_respond`'s status: the code argument, or 200 when it is falsy. */
  function Status(code: Option<int>): (s: int)
    ensures code.None? || code == Some(0) ==> s == 200
    ensures code.Some? && code.value != 0 ==> s == code.value
  {
    match code
    case Some(c) => if c != 0 then c else 200
    case None => 200
  }

  /** A request that fails validation is answered 400 with the thrown string
      before its body is looked at, whatever the body and the service. */
  lemma RejectedBeforeBody(req: Request, body: Body, svc: Service, other: Service, assertMessage: string -> string)
    requires ValidateRequest(req.verb, req.contentType).Some?
    ensures Route(req, svc, assertMessage) == Route(req.(body := body), other, assertMessage)
    ensures Route(req, svc, assertMessage) == Failed(ValidateRequest(req.verb, req.contentType).value)
  {
  }

  /** A command never crashes the process; it answers 200, 400, or the 404
      that only `cancel` gives. */
  lemma CommandStatuses(c: Command, json: Json, svc: Service, assertMessage: string -> string)
    ensures RunCommand(c, json, svc, assertMessage).Send?
    ensures Status(RunCommand(c, json, svc, assertMessage).code) in {200, 400, 404}
    ensures Status(RunCommand(c, json, svc, assertMessage).code) == 404 ==>
      c == Cancel && RunCommand(c, json, svc, assertMessage).data == JObj([("not_found", Get(json, "hash").value)])
  {
  }

  /** Every answer is a 200, a 400, or the 404 of `cancel` for an unknown
      upload. */
  lemma RouteStatuses(req: Request, svc: Service, assertMessage: string -> string)
    ensures Route(req, svc, assertMessage).Send? ==> Status(Route(req, svc, assertMessage).code) in {200, 400, 404}
    ensures Route(req, svc, assertMessage).Send? && Status(Route(req, svc, assertMessage).code) == 404 ==>
        && req.body.Received? && req.body.parsed.Success?
        && CommandKey(req.body.parsed.value) == Success("cancel")
        && Route(req, svc, assertMessage).data == JObj([("not_found", Get(req.body.parsed.value, "hash").value)])
  {
    if ValidateRequest(req.verb, req.contentType).None? && req.body.Received? && req.body.parsed.Success? {
      var json := req.body.parsed.value;
      if json != JNull && CommandKey(json).Success? && CommandNamed(CommandKey(json).value).Some? {
        CommandStatuses(CommandNamed(CommandKey(json).value).value, json, svc, assertMessage);
      }
    }
  }

  /** A valid request whose body cannot be read or is not JSON gets 400 with
      the error's message; one naming no command gets 400 'Invalid command';
      one whose command cannot be turned into a key throws outside any `try`. */
  lemma RouteBodyErrors(req: Request, svc: Service, assertMessage: string -> string)
    requires ValidateRequest(req.verb, req.contentType).None?
    ensures req.body.StreamError? ==> Route(req, svc, assertMessage) == Failed(req.body.message)
    ensures req.body.Received? && req.body.parsed.Failure? ==>
      Route(req, svc, assertMessage) == Failed(req.body.parsed.error)
    ensures req.body.Received? && req.body.parsed.Success? && req.body.parsed.value != JNull
            && CommandKey(req.body.parsed.value).Success?
            && CommandKey(req.body.parsed.value).value !in {"id", "download", "upload", "cancel"} ==>
      Route(req, svc, assertMessage) == Failed(InvalidCommand)
    ensures req.body.Received? && req.body.parsed.Success? && CommandUnconvertible(req.body.parsed.value) ==>
      Route(req, svc, assertMessage) == Crash(NoPrimitive)
  {
  }

  /** The guarded command check answers a command that cannot be converted
      with 400 `Invalid command` where the code as written crashes, and
      agrees with it on every other request. */
  lemma RouteGuardedFixesConversion(req: Request, svc: Service, assertMessage: string -> string)
    ensures var unconvertible := ValidateRequest(req.verb, req.contentType).None? && req.body.Received?
              && req.body.parsed.Success? && CommandUnconvertible(req.body.parsed.value);
      && (unconvertible ==> RouteGuarded(req, svc, assertMessage) == Failed(InvalidCommand)
                            && Route(req, svc, assertMessage) == Crash(NoPrimitive))
      && (!unconvertible ==> RouteGuarded(req, svc, assertMessage) == Route(req, svc, assertMessage))
  {
  }

  /** With the guard, the body `null` is the only request that crashes. */
  lemma RouteGuardedCrashes(req: Request, svc: Service, assertMessage: string -> string)
    ensures RouteGuarded(req, svc, assertMessage).Crash? <==>
      ValidateRequest(req.verb, req.contentType).None? && req.body == Received(Success(JNull))
  {
    if ValidateRequest(req.verb, req.contentType).None? && req.body.Received? && req.body.parsed.Success? {
      var json := req.body.parsed.value;
      if json != JNull && CommandKey(json).Success? && CommandNamed(CommandKey(json).value).Some? {
        CommandStatuses(CommandNamed(CommandKey(json).value).value, json, svc, assertMessage);
      }
    }
  }

  /** As written, a body whose command is an object with a `toString` field,
      or an array holding one, crashes the process instead of being answered
      400 `Invalid command`. */
  lemma ToStringCommandFinding(req: Request, svc: Service, assertMessage: string -> string)
    requires ValidateRequest(req.verb, req.contentType).None?
    requires req.body == Received(Success(JObj([("command", JObj([("toString", JNum(0))]))])))
          || req.body == Received(Success(JObj([("command", JArr([JObj([("toString", JNum(0))])]))])))
    ensures Route(req, svc, assertMessage) == Crash(NoPrimitive)
    ensures RouteGuarded(req, svc, assertMessage) == Failed(InvalidCommand)
  {
    var bad := JObj([("toString", JNum(0))]);
    assert Unconvertible(bad);
    assert Unconvertible(JArr([bad])) by {
      assert [bad][0] == bad;
    }
  }

  /** `cancel` answers 200 `{ok: hash}` when the upload was cancelled and
      404 `{not_found: hash}` otherwise; a falsy hash fails the assertion. */
  lemma CancelAnswers(json: Json, svc: Service, assertMessage: string -> string)
    ensures var a := RunCommand(Cancel, json, svc, assertMessage);
      && (!Truthy(Get(json, "hash")) ==> a == Failed(assertMessage("json.hash")))
      && (Truthy(Get(json, "hash")) && svc.cancelUpload(Get(json, "hash").value) == Success(true) ==>
            a == Send(JObj([("ok", Get(json, "hash").value)]), None) && Status(a.code) == 200)
      && (Truthy(Get(json, "hash")) && svc.cancelUpload(Get(json, "hash").value) == Success(false) ==>
            a == Send(JObj([("not_found", Get(json, "hash").value)]), Some(404)) && Status(a.code) == 404)
  {
  }

  // ---------------------------------------------------------------------
  // _respond
  // ---------------------------------------------------------------------

  /** The number of bytes of a code point in UTF-8. */
  function Utf8Width(c: char): (n: nat)
    ensures 1 <= n <= 4
    ensures n == 1 <==> (c as int) < 0x80
  {
    if (c as int) < 0x80 then 1
    else if (c as int) < 0x800 then 2
    else if (c as int) < 0x10000 then 3
    else 4
  }

  /** `Buffer.byteLength(s)`: the UTF-8 length of the string. */
  function ByteLength(s: string): nat
    decreases |s|
  {
    if |s| == 0 then 0 else Utf8Width(s[0]) + ByteLength(s[1..])
  }

  /** The byte length is at least the character count, and equal to it
      exactly for ASCII text. */
  lemma {:induction false} ByteLengthBounds(s: string)
    ensures |s| <= ByteLength(s) <= 4 * |s|
    ensures ByteLength(s) == |s| <==> forall i :: 0 <= i < |s| ==> (s[i] as int) < 0x80
    decreases |s|
  {
    if |s| > 0 {
      ByteLengthBounds(s[1..]);
      assert forall i :: 1 <= i < |s| ==> s[i] == s[1..][i - 1];
    }
  }

  /** A response as `_respond` writes it. */
  datatype Reply = Reply(status: int, contentType: string, contentLength: nat, body: string)

  /** `_respond(data, response, code)`: serialise truthy data, send nothing
      for falsy data; the status defaults to 200. */
  function Respond(data: Option<Json>, code: Option<int>, stringify: Json -> string): (r: Reply)
    ensures r.contentType == "application/json"
    ensures r.contentLength == ByteLength(r.body)
    ensures !Truthy(data) ==> r.body == ""
    ensures Truthy(data) ==> r.body == stringify(data.value)
    ensures r.status == Status(code)
  {
    var body := if Truthy(data) then stringify(data.value) else "";
    Reply(Status(code), "application/json", ByteLength(body), body)
  }

  /** The reply to a request that does not crash the process. */
  function Handle(req: Request, svc: Service, assertMessage: string -> string, stringify: Json -> string): (r: Option<Reply>)
    ensures r.None? <==> Route(req, svc, assertMessage).Crash?
  {
    match Route(req, svc, assertMessage)
    case Crash(_) => None
    case Send(data, code) => Some(Respond(Some(data), code, stringify))
  }

  /** A valid request crashes `_route` exactly when its body is `null`, whose
      `command` property cannot be read, or names a command that cannot be
      turned into a property key; each throws its own `TypeError`. */
  lemma CrashingBodies(req: Request, svc: Service, assertMessage: string -> string, stringify: Json -> string)
    requires ValidateRequest(req.verb, req.contentType).None?
    ensures Handle(req, svc, assertMessage, stringify).None? <==>
      || req.body == Received(Success(JNull))
      || (req.body.Received? && req.body.parsed.Success? && CommandUnconvertible(req.body.parsed.value))
    ensures req.body == Received(Success(JNull)) ==> Route(req, svc, assertMessage) == Crash(NullCommand)
  {
    if req.body.Received? && req.body.parsed.Success? {
      var json := req.body.parsed.value;
      if json != JNull && CommandKey(json).Success? && CommandNamed(CommandKey(json).value).Some? {
        CommandStatuses(CommandNamed(CommandKey(json).value).value, json, svc, assertMessage);
      }
    }
  }

  /** Every data object `_route` sends is truthy, so its serialisation is
      always sent with its byte length. */
  lemma HandleSendsData(req: Request, svc: Service, assertMessage: string -> string, stringify: Json -> string)
    requires Route(req, svc, assertMessage).Send?
    requires Route(req, svc, assertMessage).data.JObj?
    ensures var r := Handle(req, svc, assertMessage, stringify).value;
      r.body == stringify(Route(req, svc, assertMessage).data) && r.contentLength == ByteLength(r.body)
  {
  }

  /** The server's address: falsy arguments fall back to the defaults. */
  datatype Address = Address(port: int, host: string)

  function Configure(port: Option<int>, host: Option<string>): (a: Address)
    ensures port.None? || port == Some(0) ==> a.port == DefaultPort
    ensures port.Some? && port.value != 0 ==> a.port == port.value
    ensures host.None? || host == Some("") ==> a.host == DefaultHost
    ensures host.Some? && host.value != "" ==> a.host == host.value
  {
    Address(
      match port case Some(p) => (if p != 0 then p else DefaultPort) case None => DefaultPort,
      match host case Some(h) => (if h != "" then h else DefaultHost) case None => DefaultHost)
  }
}

=== FILE: wrappers.dfy ===
/** Failure-carrying wrappers shared by every module of the model. */
module Wrappers {

  /** A value that may be absent: JavaScript's `undefined`, a missing key. */
  datatype Option<+T> = None | Some(value: T) {
    function GetOr(default: T): T {
      match this
      case Some(v) => v
      case None => default
    }
  }

  /** The outcome of a call that may throw: `Failure` carries the exception message. */
  datatype Result<+R> = Success(value: R) | Failure(error: string)
}
